=== FILE: README.md ===
# Quiby Mini App core, modelled in Dafny

This project models the stateful core of the Quiby Telegram Mini App front end
(`quiby-ai/frontend`). That core is the screens and hooks that hold logic
beyond rendering:

- the reconnecting `WebSocketService` and the `useWebSocket` hook that owns it;
- the processing screen's progress reducer, which turns pipeline status
  messages (`extract`, `prepare`) into step flags, a progress percentage and
  completion or failure callbacks, plus the fallback progress animation;
- the `useAppFlow` wizard: a guarded step machine over the application state;
- the selection and validation rules:
  - country toggling with the exclusive "worldwide" choice;
  - the multi-select toggle;
  - date-range clamping and labelling;
  - the sampling-criteria screen's mode, quick-select, can-start and criteria
    construction;
  - the error screen's keyword classification;
  - the chat screen's flag lookup and send/answer cycle.

Every operation is a pure function over immutable datatypes. Things the
browser or React would do become explicit inputs:

- A timer firing, a socket opening, closing or erroring, and a frame arriving
  are `Transport.Event` values.
- Opening a socket, arming a back-off timer, calling a callback or transmitting
  a frame are `Transport.Effect` values that a step returns.
- `Math.random()`, the current time, end-of-day and date formatting are
  parameters.
- The outcome of a chat query is a `Chat.QueryOutcome`.

Modules:

| file | module | models |
|---|---|---|
| wrappers.dfy | `Wrappers` | `Option`, standing for `undefined`/`null` |
| seqs.dfy | `Seqs` | `filter(x => x !== item)`, and toggling membership in a list |
| text.dfy | `Text` | `String.prototype.includes`, `trim` and ASCII `toLowerCase` |
| transport.dfy | `Transport` | `src/services/websocket.ts` |
| socket_hook.dfy | `SocketHook` | `src/hooks/useWebSocket.ts` |
| progress.dfy | `Progress` | `src/components/screens/ProcessingScreen.tsx` |
| app_flow.dfy | `AppFlow` | `src/hooks/useAppFlow.ts` and the state types |
| country_selection.dfy | `CountrySelection` | `src/components/screens/CountrySelectionScreen.tsx` |
| multi_select.dfy | `MultiSelect` | `src/components/ui/multi-select.tsx` |
| date_range.dfy | `DateRangePicker` | `src/components/ui/date-range-picker.tsx` |
| sampling.dfy | `Sampling` | `src/components/screens/SamplingCriteriaScreen.tsx` |
| error_info.dfy | `ErrorInfo` | `src/components/screens/ErrorScreen.tsx` |
| chat.dfy | `Chat` | `src/components/screens/ChatScreen.tsx` |

## Where the model follows the code rather than the comments

- **Reset on open.** `onopen` resets `reconnectAttempts` to 0. So a 1006
  (abnormal) close right after a successful open takes the "attempts == 0"
  branch and ends reconnection, although the comment says 1006 should only
  stop a connection that never opened
  (`Transport.AbnormalCloseAfterOpenIsTerminal`). 1006 triggers a reconnect
  only for a retry that has not opened yet
  (`Transport.AbnormalCloseRetriesOnlyUnopened`).
- **Handlers stay attached.** `disconnect()` does not detach the socket's
  handlers. The close that follows still reaches `onClose`
  (`Transport.LateCloseAfterDisconnect`). The hook's `handleClose` runs too,
  because the retired service still holds it (`SocketHook.LateCloseReachesHook`).
- **The flag lags a closing handshake.** The browser moves an OPEN socket
  to CLOSING with no event. From then on the service drops sent data and
  reports not connected, but the hook's `isConnected` stays true until
  `onclose` (`SocketHook.ClosingHandshakeKeepsFlag`).
- **A stale close clears the flag.** `connect()` replaces a live service
  without detaching it. If the old socket's close arrives after the new
  socket's `onopen`, the hook reports not connected while its current socket
  is OPEN (`SocketHook.StaleCloseAfterReconnect`).
- **No guard on completion.** The completion callback fires on every
  `prepare`/`completed` message (`Progress.CompletionFiresEveryTime`).
- **Duplicates are counted.** Progress on `completed` is computed from the
  count of completed steps *before* the update, plus one. A repeated
  `completed` is counted twice: two `extract`/`completed` messages show 100%
  while `prepare` is still pending
  (`Progress.DuplicateCompletionCountedTwice`). Once every step is complete,
  a repeated `completed` for any step other than `prepare` pushes progress
  to (N+1)/N, which is 150% for this two-step
  pipeline (`Progress.ProgressExceedsHundred`). A repeated `prepare`/`completed`
  takes the finishing branch instead and sets progress to 100.
- **A failed reconnect ends reconnection.** A browser reports a socket that
  never opens as an error, read while the socket is already CLOSED, followed
  by a 1006 close. The error handler then disables reconnection, so a retry
  that fails this way is the last one (`Transport.FailedReconnectIsTerminal`).
  The doubling back-off beyond the first one-second delay is reached only
  when each retry closes with a code the `switch` has no case for, such as
  1001, and reports no error first (`Transport.BackoffDoubles`), or when it
  closes with 1006 without reporting an error first
  (`Transport.AbnormalCloseRetriesOnlyUnopened`).
- **Unknown failures signal.** A `failed` message for an unknown step name
  still calls `onProcessingError` (`Progress.UnknownFailureStillSignals`).

## Model

| member | source | states |
|---|---|---|
| Transport.NewService | src/services/websocket.ts:16-30 | a new service holds no socket, has a zero attempt counter, has reconnection enabled and has no timer armed |
| Transport.BackoffDelay | src/services/websocket.ts:20 | the delay is 1000·2^(attempt−1) ms, and each attempt doubles the delay of the one before |
| Transport.OnConnect | src/services/websocket.ts:32-43 | connecting opens a CONNECTING socket on the service's URL and arms the connection timeout; a URL the constructor rejects disables reconnection and opens nothing |
| Transport.OnOpen | src/services/websocket.ts:45-54 | after `onopen` the attempt counter is 0, reconnection is enabled, the timeout is disarmed, the service reports connected and `onOpen` is called |
| Transport.OnFrame | src/services/websocket.ts:56-63 | a parsed frame is forwarded to `onMessage`; a malformed one produces no callback; the service state never changes |
| Transport.OnClose | src/services/websocket.ts:65-107 | `onClose` is always called first; reconnection stays enabled iff it was enabled and the code is not terminal; a reconnect is scheduled iff reconnection stays enabled and fewer than 5 attempts were made; scheduling adds one to the counter and arms the delay for the new count; otherwise the counter is unchanged |
| Transport.OnError | src/services/websocket.ts:109-126 | an error disarms the timeout; if the socket reads CLOSED, reconnection is disabled, otherwise the flag is kept; the counter is untouched; `onError` is called |
| Transport.OnConnectTimeout | src/services/websocket.ts:37-43 | a timeout that finds the socket still CONNECTING disables reconnection and closes the socket; a cleared timeout does nothing |
| Transport.OnReconnectTimer | src/services/websocket.ts:144-148 | a back-off timer reconnects iff reconnection is still enabled when it fires; a socket is opened only in that case |
| Transport.OnDisconnect | src/services/websocket.ts:151-161 | `disconnect()` disables reconnection, disarms the timeout, drops the socket and closes it with code 1000 if one existed |
| Transport.OnStopReconnecting | src/services/websocket.ts:164-171 | `stopReconnecting()` disables reconnection and disarms the timeout; the socket and the counter are kept; nothing is sent |
| Transport.OnResetReconnection | src/services/websocket.ts:174-178 | `resetReconnection()` re-enables reconnection with a zero counter and changes nothing else |
| Transport.OnSend | src/services/websocket.ts:180-186 | data is transmitted iff the socket is OPEN; otherwise it is dropped; the state never changes |
| Transport.OnClosingStarted | src/services/websocket.ts:180-190 | a closing handshake the browser starts moves an OPEN socket to CLOSING with no handler run, so the service is no longer connected; any other state is unchanged |
| Transport.IsConnected | src/services/websocket.ts:188-190 | the service reports connected exactly when it holds a socket whose state is OPEN |
| Transport.Step | src/services/websocket.ts:32-186 | no event changes the service's URL or whether the constructor accepted it |
| Transport.StepPreservesValid | src/services/websocket.ts:102-139 | no event raises the attempt counter above the cap of 5 |
| Transport.RunPreservesValid | src/services/websocket.ts:102-139 | the counter stays within the cap along any sequence of events |
| Transport.NoRetryAfterTerminalCode | src/services/websocket.ts:76-96 | closes with codes 1000, 1011 and 1015 disable reconnection and schedule nothing |
| Transport.AbnormalCloseAfterOpenIsTerminal | src/services/websocket.ts:51-88 | a 1006 close right after a successful open disables reconnection and schedules nothing |
| Transport.AbnormalCloseRetriesOnlyUnopened | src/services/websocket.ts:81-104 | a 1006 close schedules a reconnect only when the attempt counter is already positive |
| Transport.BackoffSchedule | src/services/websocket.ts:139-140 | the five permitted delays are 1000, 2000, 4000, 8000 and 16000 ms |
| Transport.QuiescedStep | src/services/websocket.ts:144-161 | once disconnected, no deliverable event other than `connect()` or `resetReconnection()` opens a socket or arms a reconnect, and the service stays disconnected |
| Transport.NoReconnectAfterDisconnect | src/services/websocket.ts:144-161 | after `disconnect()`, no run of later timers, closes, errors, frames or sends opens a socket or arms a reconnect |
| Transport.QuiescedRun | src/services/websocket.ts:144-161 | the disconnected state absorbs any run of such events |
| Transport.LateCloseAfterDisconnect | src/services/websocket.ts:65-161 | a close that arrives after `disconnect()` still calls `onClose` and only that, and never re-enables reconnection |
| Transport.StopPreventsReconnect | src/services/websocket.ts:144-171 | after `stopReconnecting()`, a firing back-off timer opens nothing and a close of any code only calls `onClose` |
| Transport.ResetRestoresBudget | src/services/websocket.ts:102-178 | after `resetReconnection()`, every close the `switch` does not treat as terminal at a zero counter schedules the first reconnect, 1000 ms, and leaves the counter at 1 with reconnection enabled, whatever the counter was |
| Transport.ResetThenAbnormalIsTerminal | src/services/websocket.ts:81-178 | after `resetReconnection()`, a 1006 close only calls `onClose`, disables reconnection and keeps the counter at 0 |
| Transport.FailedReconnectIsTerminal | src/services/websocket.ts:102-148 | a retry that opens a socket, reads an error while the socket is CLOSED and then closes with 1006 calls `onError` and `onClose`, disables reconnection and arms no further timer, whatever the counter |
| Transport.SendNeedsOpenSocket | src/services/websocket.ts:45-186 | data sent after `onopen` is transmitted; once the closing handshake starts the service is not connected and drops data; data sent after `disconnect()` is dropped |
| Transport.DelaysAppend | src/services/websocket.ts:139-148 | the back-off delays of two effect lists, in order, are those of the first followed by those of the second |
| Transport.RunWithAppend | src/services/websocket.ts:32-186 | running two event lists one after the other equals running their concatenation, in both state and effects |
| Transport.FailedRetryStep | src/services/websocket.ts:102-148 | a retry whose socket closes before opening with code 1001 and no error raises the counter by one and arms exactly the next back-off delay |
| Transport.BackoffDoubles | src/services/websocket.ts:102-148 | n consecutive retries, each closed with 1001 before opening and with no error, after k earlier ones arm the delays for attempts k+1 … k+n, in order |
| Transport.FullBackoffSchedule | src/services/websocket.ts:133-148 | from a fresh counter, five retries each closed with 1001 and no error wait 1, 2, 4, 8 and 16 s and leave the counter at the cap |
| Transport.StopsAtCap | src/services/websocket.ts:102-106 | at the cap, no close of any code arms another reconnect |
| SocketHook.Initial | src/hooks/useWebSocket.ts:16-18 | the hook starts with no service, not connected and with no last message |
| SocketHook.HandleMessage | src/hooks/useWebSocket.ts:20-23 | a message becomes `lastMessage` without touching the connection flag or the service |
| SocketHook.HandleOpen | src/hooks/useWebSocket.ts:25-28 | an open marks the hook connected and keeps the last message |
| SocketHook.HandleClose | src/hooks/useWebSocket.ts:30-33 | a close marks the hook not connected and keeps the last message |
| SocketHook.Deliver | src/hooks/useWebSocket.ts:20-48 | an event of the current service steps it and the hook reports exactly that service's effects; without a current service nothing happens; retired services are untouched |
| SocketHook.DeliverRetired | src/hooks/useWebSocket.ts:20-48 | an event of a retired service steps that service, whose effects still drive the hook's callbacks; the current service is untouched |
| SocketHook.OnEffect | src/hooks/useWebSocket.ts:20-37 | `onOpen` marks the hook connected, `onClose` not connected, `onMessage` records the message, each touching nothing else; an error callback and every non-callback effect leave the hook unchanged; the service is never replaced |
| SocketHook.OnEffects | src/hooks/useWebSocket.ts:20-37 | the hook reacts to a step's effects in order and never replaces its current or retired services |
| SocketHook.Retire | src/hooks/useWebSocket.ts:39-60 | a current service, disconnected, joins the retired services; without one nothing is retired |
| SocketHook.Connect | src/hooks/useWebSocket.ts:39-52 | the old service, if it holds a socket, is closed with 1000 before the new service opens; the hook ends holding exactly the new, connecting service with a zero counter, and the old one is retired |
| SocketHook.Disconnect | src/hooks/useWebSocket.ts:54-60 | the service is disconnected, dropped as current and retired, and the hook is not connected afterwards, whether or not a service existed |
| SocketHook.Send | src/hooks/useWebSocket.ts:62-66 | data is transmitted iff a service exists and its socket is OPEN |
| SocketHook.ConnectThenOpen | src/hooks/useWebSocket.ts:25-66 | `connect()` followed by the new socket's `onopen` leaves the hook connected on a fresh service with a zero counter and the hook's URL, and `send` then transmits |
| SocketHook.DisconnectDropsCurrent | src/hooks/useWebSocket.ts:54-66 | after `disconnect()` the hook has no current service: an event for it changes nothing, nothing is sent and the hook is not connected |
| SocketHook.LateCloseReachesHook | src/hooks/useWebSocket.ts:30-60 | the close that follows `disconnect()` still runs `handleClose`: `onClose` is forwarded, the hook stays not connected and the retired service never reconnects |
| SocketHook.ClosingHandshakeKeepsFlag | src/hooks/useWebSocket.ts:25-66 | after the socket opens and the browser starts a closing handshake, the hook still reports connected while its service is not connected and `send` transmits nothing |
| SocketHook.StaleCloseAfterReconnect | src/hooks/useWebSocket.ts:30-60 | after `connect()` replaces a live service and the new socket opens, the old socket's close leaves the hook not connected while its current socket is OPEN |
| SocketHook.OnEffectsIgnoresOthers | src/hooks/useWebSocket.ts:44-49 | effects other than the three state-changing callbacks leave the hook unchanged |
| SocketHook.DeliverOpenConnects | src/hooks/useWebSocket.ts:25-46 | an `onopen` reaching the service leaves the hook connected |
| SocketHook.DeliverCloseDisconnects | src/hooks/useWebSocket.ts:30-47 | an `onclose` of any code leaves the hook not connected |
| SocketHook.DeliverErrorKeepsFlags | src/hooks/useWebSocket.ts:35-48 | an `onerror` changes neither `isConnected` nor `lastMessage` |
| SocketHook.DeliverFrameRecordsMessage | src/hooks/useWebSocket.ts:20-45 | a parsed frame becomes `lastMessage` and is forwarded; a malformed one changes nothing |
| Progress.Initial | src/components/screens/ProcessingScreen.tsx:10-50 | the screen starts with the steps `extract` then `prepare`, all flags false, progress 0 and not complete |
| Progress.CompletedCount | src/components/screens/ProcessingScreen.tsx:104 | the number of completed steps never exceeds the number of steps |
| Progress.Rewrite | src/components/screens/ProcessingScreen.tsx:92-100 | a step named by the message gets status and flags with active ⇔ running, completed ⇔ completed and failed ⇔ failed; at most one flag holds; an empty context message keeps the old text; any other step is untouched |
| Progress.RewriteSteps | src/components/screens/ProcessingScreen.tsx:90-113 | the message rewrites each step in place, keeping the order and names; an unknown step name leaves every step unchanged |
| Progress.ProgressAfterRewrite | src/components/screens/ProcessingScreen.tsx:103-108 | on `completed` for a known step, progress is (completed before + 1)/N·100; otherwise it is unchanged |
| Progress.HandleMessage | src/components/screens/ProcessingScreen.tsx:85-127 | the steps are rewritten; `prepare`/`completed` sets completion and progress to 100 and signals completion iff it is that message; any `failed` signals "Processing failed at step: " + step, and only `failed` does; a message that neither fails nor finishes signals nothing; completion is never undone |
| Progress.FallbackStep | src/components/screens/ProcessingScreen.tsx:146-150 | a tick never exceeds 90; below 90 it rises by at most the increment; at or above 90 it is 90 |
| Progress.FallbackTick | src/components/screens/ProcessingScreen.tsx:143-155 | the animation runs only while not connected and not complete, and changes only the progress |
| Progress.SocketUrl | src/components/screens/ProcessingScreen.tsx:58 | the URL is the base followed by `?saga_id=` and the saga id when the id is non-empty, and the bare base otherwise |
| Progress.CountOneMore | src/components/screens/ProcessingScreen.tsx:104 | flipping one step to completed, and nothing else, adds one to the completed count |
| Progress.CountSame | src/components/screens/ProcessingScreen.tsx:104 | steps with equal completion flags have equal counts |
| Progress.FreshCompletionConsistent | src/components/screens/ProcessingScreen.tsx:90-108 | a `completed` for a step not yet completed leaves progress equal to the completed fraction |
| Progress.DuplicateCompletionCountedTwice | src/components/screens/ProcessingScreen.tsx:103-108 | two `extract`/`completed` messages show 50% then 100% with one step completed and processing not complete |
| Progress.ProgressExceedsHundred | src/components/screens/ProcessingScreen.tsx:103-108 | with every step completed, a repeated `completed` for a step other than `prepare` sets progress to (N+1)/N·100, above 100% |
| Progress.ExtractCompletedOnPipeline | src/components/screens/ProcessingScreen.tsx:90-121 | `extract` completed on the two-step pipeline completes that step alone, sets progress from the previous count, and does not finish processing |
| Progress.CompletionFiresEveryTime | src/components/screens/ProcessingScreen.tsx:117-121 | every `prepare`/`completed` message fires the completion callback, a repeat included |
| Progress.UnknownFailureStillSignals | src/components/screens/ProcessingScreen.tsx:91-126 | a failure for any step name the screen does not list changes nothing on screen yet fires the error callback |
| Progress.HappyPath | src/components/screens/ProcessingScreen.tsx:85-127 | running/completed for `extract` then `prepare` shows 0, 50, 50 and 100%, and completion fires only on the last message |
| Progress.FallbackNeverCompletes | src/components/screens/ProcessingScreen.tsx:143-155 | the fallback alone never reaches 100% nor sets completion |
| AppFlow.InitialState | src/hooks/useAppFlow.ts:4-7 | the wizard starts at `loading`, not authenticated, with no optional field set |
| AppFlow.SetStep | src/hooks/useAppFlow.ts:12-14 | only the current step changes |
| AppFlow.SetAuthenticated | src/hooks/useAppFlow.ts:16-18 | only the authentication flag changes |
| AppFlow.SelectApp | src/hooks/useAppFlow.ts:20-23 | only the selected app changes |
| AppFlow.SelectCountries | src/hooks/useAppFlow.ts:25-27 | only the selected countries change |
| AppFlow.SetSamplingCriteria | src/hooks/useAppFlow.ts:29-31 | only the sampling criteria change |
| AppFlow.SetSagaId | src/hooks/useAppFlow.ts:33-35 | only the saga id changes |
| AppFlow.SetError | src/hooks/useAppFlow.ts:37-39 | the error is recorded and the step becomes `error`; nothing else changes |
| AppFlow.SetResults | src/hooks/useAppFlow.ts:41-43 | the results are recorded and the step becomes `success`; nothing else changes |
| AppFlow.ProceedToNextStep | src/hooks/useAppFlow.ts:64-94 | only the step changes: loading→welcome, welcome→app_selection and error→welcome always; app_selection, country_selection and sampling_criteria advance iff an app, a non-empty country list or criteria are set; processing and success stay put |
| AppFlow.Reset | src/hooks/useAppFlow.ts:4-98 | reset returns to `loading`, unauthenticated, with no app, countries, criteria, job id, saga id, results or error |
| AppFlow.ProceedAdvancesAtMostOne | src/hooks/useAppFlow.ts:64-94 | outside the error screen, proceeding advances the wizard by at most one screen and never goes back |
| AppFlow.NeverPastMissingChoice | src/hooks/useAppFlow.ts:74-89 | however often the wizard proceeds, it never passes a screen whose choice is missing |
| AppFlow.ProcessingNeedsAllChoices | src/hooks/useAppFlow.ts:74-89 | proceeding from app selection or earlier reaches processing only with an app, a non-empty country list and criteria set |
| AppFlow.ProceedKeepsChoices | src/hooks/useAppFlow.ts:64-94 | proceeding, any number of times, changes nothing but the step |
| CountrySelection.ToggleCountry | src/components/screens/CountrySelectionScreen.tsx:34-44 | toggling always leaves worldwide mode; in worldwide mode the selection becomes exactly the code; otherwise a selected code is removed with the rest kept, and an unselected code is appended |
| CountrySelection.SelectWorldwide | src/components/screens/CountrySelectionScreen.tsx:46-49 | worldwide mode with the selection `['worldwide']` |
| CountrySelection.HasSelection | src/components/screens/CountrySelectionScreen.tsx:51 | a selection exists iff some code is selected or worldwide mode is on |
| CountrySelection.ToggleTwiceRestores | src/components/screens/CountrySelectionScreen.tsx:38-42 | toggling an unselected code twice outside worldwide mode restores the selection |
| CountrySelection.DeselectKeepsOrder | src/components/screens/CountrySelectionScreen.tsx:39-40 | deselecting removes the code from both halves of the list and keeps the rest in order |
| CountrySelection.SelectionAfterActions | src/components/screens/CountrySelectionScreen.tsx:34-51 | `hasSelection` holds after choosing worldwide or adding a code; after removing a code it holds iff another code remains |
| CountrySelection.ToggleKeepsNoDuplicates | src/components/screens/CountrySelectionScreen.tsx:34-44 | toggling keeps a duplicate-free selection duplicate-free |
| MultiSelect.Unselect | src/components/ui/multi-select.tsx:39-41 | every occurrence of the item is removed, every other value keeps its multiplicity |
| MultiSelect.OnSelect | src/components/ui/multi-select.tsx:95-101 | a selected option is removed, an unselected one appended; the option ends selected iff it was not |
| MultiSelect.UnselectKeepsOrder | src/components/ui/multi-select.tsx:39-41 | removal distributes over concatenation, so the others keep their order |
| MultiSelect.SelectTwiceRestores | src/components/ui/multi-select.tsx:95-101 | selecting an unselected option twice restores the value |
| MultiSelect.SelectKeepsNoDuplicates | src/components/ui/multi-select.tsx:95-101 | selecting keeps a duplicate-free value duplicate-free |
| DateRangePicker.HandleSelect | src/components/ui/date-range-picker.tsx:57-73 | an undefined range passes through; `from` never changes; `to` is present iff it was; `to` is clamped to end-of-today then raised to `from`; a complete result is ordered; a permitted `from` gives a permitted `to` |
| DateRangePicker.OpenAfterSelect | src/components/ui/date-range-picker.tsx:75-78 | the popover closes iff the resulting range has both endpoints, and never opens |
| DateRangePicker.FormatDateRange | src/components/ui/date-range-picker.tsx:41-55 | no `from` gives the placeholder, `from` alone gives one date, both give the span |
| DateRangePicker.Disabled | src/components/ui/date-range-picker.tsx:116-120 | the calendar disables exactly the instants after the end of today |
| DateRangePicker.LabelText | src/components/ui/date-range-picker.tsx:41-55 | the button reads the placeholder, the one day, or the two days joined by " - " |
| DateRangePicker.ClosingSelectShowsSpan | src/components/ui/date-range-picker.tsx:41-78 | an open popover closes on a selection iff the button then shows a span of two days |
| DateRangePicker.HandleSelectIdempotent | src/components/ui/date-range-picker.tsx:57-73 | re-selecting an adjusted range changes nothing |
| DateRangePicker.SelectionStaysSelectable | src/components/ui/date-range-picker.tsx:57-120 | a complete range whose start the calendar allows ends ordered, with no endpoint the calendar disables |
| Sampling.Initial | src/components/screens/SamplingCriteriaScreen.tsx:28-30 | the screen starts in date-range mode with no versions and no range |
| Sampling.HandleModeChange | src/components/screens/SamplingCriteriaScreen.tsx:35-48 | choosing version mode is ignored; choosing date-range mode sets it and clears the versions |
| Sampling.HandleQuickSelect | src/components/screens/SamplingCriteriaScreen.tsx:50-56 | quick select sets a complete range ending now and starting the given number of days earlier |
| Sampling.SetDateRange | src/components/screens/SamplingCriteriaScreen.tsx:30 | only the range changes |
| Sampling.BuildCriteria | src/components/screens/SamplingCriteriaScreen.tsx:68-78 | the criteria carry the mode; versions iff in version mode; both dates iff in date-range mode with both endpoints, formatted from those endpoints |
| Sampling.CanStart | src/components/screens/SamplingCriteriaScreen.tsx:58-66 | start is allowed in version mode iff a version is chosen, and in date-range mode iff both ends are chosen with the start not after the end |
| Sampling.StartableCriteriaComplete | src/components/screens/SamplingCriteriaScreen.tsx:58-78 | whatever start lets through builds usable criteria: both days of the range in date-range mode, a non-empty version list in version mode |
| Sampling.InitialCannotStart | src/components/screens/SamplingCriteriaScreen.tsx:28-66 | the initial screen cannot start |
| Sampling.QuickSelectCanStart | src/components/screens/SamplingCriteriaScreen.tsx:50-66 | each offered quick select of 7, 30 or 90 days enables start |
| Sampling.AlwaysDateRangeMode | src/components/screens/SamplingCriteriaScreen.tsx:28-48 | from the first render, no sequence of user actions leaves date-range mode or sets a version |
| Sampling.DateRangeModeKept | src/components/screens/SamplingCriteriaScreen.tsx:35-56 | date-range mode with no versions is kept by every action |
| Sampling.PickedCompleteRangeCanStart | src/components/screens/SamplingCriteriaScreen.tsx:58-66 | picking a range with both ends in the calendar enables start, whatever the order picked |
| ErrorInfo.EffectiveMessage | src/components/screens/ErrorScreen.tsx:14 | an empty message is replaced by the default text; any other message is kept |
| ErrorInfo.GetErrorInfo | src/components/screens/ErrorScreen.tsx:13-46 | Network iff the message contains `network` or `connection`; Timeout iff not and it contains `timeout`; Authentication iff neither and it contains `auth`; otherwise Unexpected with the message as description |
| ErrorInfo.NetworkWins | src/components/screens/ErrorScreen.tsx:17-24 | a message naming both a connection and a timeout is a network error |
| ErrorInfo.NetworkSurvivesSuffix | src/components/screens/ErrorScreen.tsx:17 | appending text to a network message keeps it a network error |
| ErrorInfo.EmptyMessageIsUnexpected | src/components/screens/ErrorScreen.tsx:14-45 | an empty message yields "Unexpected Error" describing the default text, which holds no keyword |
| ErrorInfo.CaseSensitive | src/components/screens/ErrorScreen.tsx:17 | matching is case-sensitive: "Network" is unexpected, "network" is a network error |
| Chat.GetCountryFlag | src/components/screens/ChatScreen.tsx:19-90 | a tabled code shows its own flag, `worldwide` the globe, anything else the white flag, all after lower-casing |
| Chat.FlagIgnoresCase | src/components/screens/ChatScreen.tsx:89 | lower-casing a code first does not change its flag |
| Chat.UpperAndLowerAgree | src/components/screens/ChatScreen.tsx:21-89 | `US` and `us` both show the United States flag, `Worldwide` the globe, an unknown code the white flag |
| Chat.Initial | src/components/screens/ChatScreen.tsx:93-102 | the chat opens with the assistant's greeting alone, an empty input and no query in flight |
| Chat.SetInput | src/components/screens/ChatScreen.tsx:101 | typing changes only the input |
| Chat.CanSend | src/components/screens/ChatScreen.tsx:115 | a send goes through iff the trimmed input is non-empty and no query is in flight |
| Chat.SendMessage | src/components/screens/ChatScreen.tsx:114-127 | a blank input or a query in flight does nothing; otherwise the trimmed input is appended as the user's message and becomes the query, the input is cleared and loading is set |
| Chat.Resolve | src/components/screens/ChatScreen.tsx:137-160 | a settled query appends exactly one assistant message, the answer or the fixed apology, and clears loading |
| Chat.BlankInputNeverSends | src/components/screens/ChatScreen.tsx:115 | an input of whitespace alone never sends |
| Chat.ExchangeAppendsTwo | src/components/screens/ChatScreen.tsx:114-161 | a send and its answer add exactly the trimmed user message and one assistant reply, ending idle with an empty input |
| Chat.NoSendWhileLoading | src/components/screens/ChatScreen.tsx:115-127 | while a query is in flight, whatever is typed, a second send is ignored |
| Seqs.RemoveAll | src/components/ui/multi-select.tsx:40 | the item is gone, every other element stays a member, and the list never grows |
| Seqs.Toggle | src/components/ui/multi-select.tsx:95-101 | the element ends present iff it was absent |
| Seqs.RemoveAllMultiset | src/components/ui/multi-select.tsx:40 | removal drops exactly the item's occurrences |
| Seqs.RemoveAllAppend | src/components/screens/CountrySelectionScreen.tsx:40 | removal distributes over concatenation |
| Seqs.RemoveAbsent | src/components/screens/CountrySelectionScreen.tsx:40 | removing an absent element changes nothing |
| Seqs.ToggleTwiceAbsent | src/components/screens/CountrySelectionScreen.tsx:39-41 | toggling an absent element twice is the identity |
| Seqs.ToggleNoDuplicates | src/components/screens/CountrySelectionScreen.tsx:39-41 | toggling preserves duplicate-freedom |
| Text.IncludesIff | src/components/screens/ErrorScreen.tsx:17 | the index scan finds the keyword iff the keyword occurs at some position |
| Text.IncludesAcrossSpace | src/components/screens/ErrorScreen.tsx:14 | a keyword without spaces found in two words joined by a space lies in one of them |
| Text.Trim | src/components/screens/ChatScreen.tsx:115-120 | the result is a slice of the input with only whitespace cut off each end, and it neither starts nor ends with whitespace |
| Text.TrimEmptyIff | src/components/screens/ChatScreen.tsx:115 | trimming yields empty iff the input is all whitespace |
| Text.ToLowerIdempotent | src/components/screens/ChatScreen.tsx:89 | lower-casing twice equals lower-casing once |
| Text.LowerChar | src/components/screens/ChatScreen.tsx:89 | an ASCII capital becomes the letter 32 code points later, its lower-case form; every other character is unchanged |

## Left out

- FailedRetryStep: the retry's socket closes with 1001 and no error. A retry
  that fails as a browser reports it (error, then 1006) ends reconnection
  instead, which `Transport.FailedReconnectIsTerminal` states.
- BackoffDoubles: the doubling holds for retries closed with a code the
  `switch` has no case for and no error. Under the browser's error-then-1006
  report of a failed open, only the first one-second retry happens.
- FullBackoffSchedule: the 1, 2, 4, 8 and 16 s schedule is reached only
  under the event pattern of BackoffDoubles, not by retries that fail to
  open in a browser.
- Real sockets, timers, `JSON.parse` and console output are left out. Timers
  and socket callbacks are `Transport.Event` inputs, and a frame is delivered
  already parsed or as "malformed".
- The `WebSocket` constructor throwing is the `urlAccepted` flag on the
  service.
- Transport.OnConnectTimeout: one armed flag stands for the latest connection
  timeout. A timeout orphaned by a second `connect()` before the first one
  fires is not modelled, because the service keeps only the latest handle.
- React state batching, render timing and effect cleanup are left out. Each
  handler runs to completion in source order: step update, then completion
  check, then failure check.
- The `autoConnect` effect of `useWebSocket` is left out as a trigger. It
  calls `connect()` on mount, `disconnect()` on unmount, and both again
  whenever `connect` or `disconnect` change identity. The processing screen
  passes fresh callbacks on every render, so each render reconnects. The
  model offers `SocketHook.Connect` and `SocketHook.Disconnect` as
  operations; when React runs them is not modelled.
- Transport.OnConnect: the timeout's 5000 ms duration is not modelled; the
  service records only whether the timeout is armed.
- The connection-error banner of the processing screen is left out because it
  is dead code: the hook never returns `connectionError`.
- `Math.random()` in the fallback tick is the `increment` parameter, in [1, 3).
  Progress is a `real`, not a float.
- The random error id on the error screen is not modelled.
- Progress.SocketUrl: `getWebSocketUrl()` (src/config/websocket.ts, an
  environment lookup) is the `base` parameter.
- Sampling.HandleQuickSelect: the source subtracts calendar days with
  `setDate`. The model subtracts `days · 86 400 000` ms. Around a
  daylight-saving change the two differ by an hour.
- Sampling.BuildCriteria: `toISOString().split('T')[0]` is the `isoDay`
  parameter.
- DateRangePicker.FormatDateRange: `toLocaleDateString` is the `format`
  parameter.
- Text.ToLower: only ASCII letters are lower-cased, which covers every ASCII
  spelling of the flag table's keys. JavaScript's full Unicode case mapping
  is left out; for example, it maps KELVIN SIGN (U+212A) to `k`.
- Chat.GetCountryFlag: the emoji are opaque `Flag` values. Keys inherited
  from `Object.prototype` (such as `constructor`) are left out.
- Chat.Initial: the greeting text is a parameter. It is built from the app
  name and `results.reviewsCount`, a field the results type does not
  declare.
- Chat.ChatMessage: message ids, timestamps and retrieved reviews are left
  out.
- `sendRAGQuery` is abstracted to its outcome, answered or failed.
- `startProcessing` in `useAppFlow` is left out. It is a simulated 5 s timer
  over a stale closure using `Date.now` and `Math.random`, and nothing
  calls it.
- Error-screen icons and titles beyond the kind, and every presentational
  component, are left out. These are the buttons, inputs, cards, layout,
  mascot, the welcome, loading, success, app-selection and token-limit
  screens, and `App.tsx` routing.
- The network, authentication and Telegram clients are left out:
  `src/services/auth.ts`, `src/services/api.ts`,
  `src/hooks/useAppStoreSearch.ts`, `src/hooks/useAuth.ts`,
  `src/hooks/useTelegram.ts` and `src/main.tsx`.

=== FILE: app_flow.dfy ===
/**
 * The wizard's state (`useAppFlow`): the current screen, the choices made so
 * far and the outcome. Each setter is a pure update of one field;
 * `ProceedToNextStep` advances one screen, guarded by the choice the next
 * screen needs.
 */
module AppFlow {
  import opened Wrappers

  datatype AppStep =
    | Loading | Welcome | AppSelection | CountrySelection
    | SamplingCriteria | Processing | Success | Error

  datatype App = App(id: string, name: string)

  datatype SamplingMode = Version | DateRange

  /** What the sampling screen hands on; the dates are ISO day strings. */
  datatype Criteria = Criteria(
    mode: SamplingMode,
    versions: Option<seq<string>>,
    dateFrom: Option<string>,
    dateTo: Option<string>)

  datatype Results = Results(reviewCount: int, app: App, countries: seq<string>, tokenLimit: int, jobId: string)

  datatype AppState = AppState(
    currentStep: AppStep,
    selectedApp: Option<App>,
    selectedCountries: Option<seq<string>>,
    samplingCriteria: Option<Criteria>,
    jobId: Option<string>,
    results: Option<Results>,
    error: Option<string>,
    isAuthenticated: bool,
    sagaId: Option<string>)

  /** `initialState`: on the loading screen, not authenticated, nothing chosen. */
  function InitialState(): (s: AppState)
    ensures s.currentStep == Loading && !s.isAuthenticated
    ensures s.selectedApp == None && s.selectedCountries == None && s.samplingCriteria == None
    ensures s.jobId == None && s.results == None && s.error == None && s.sagaId == None
  {
    AppState(Loading, None, None, None, None, None, None, false, None)
  }

  function SetStep(s: AppState, step: AppStep): (r: AppState)
    ensures r.currentStep == step && r.(currentStep := s.currentStep) == s
  {
    s.(currentStep := step)
  }

  function SetAuthenticated(s: AppState, authenticated: bool): (r: AppState)
    ensures r.isAuthenticated == authenticated && r.(isAuthenticated := s.isAuthenticated) == s
  {
    s.(isAuthenticated := authenticated)
  }

  function SelectApp(s: AppState, app: App): (r: AppState)
    ensures r.selectedApp == Some(app) && r.(selectedApp := s.selectedApp) == s
  {
    s.(selectedApp := Some(app))
  }

  function SelectCountries(s: AppState, countries: seq<string>): (r: AppState)
    ensures r.selectedCountries == Some(countries) && r.(selectedCountries := s.selectedCountries) == s
  {
    s.(selectedCountries := Some(countries))
  }

  function SetSamplingCriteria(s: AppState, criteria: Criteria): (r: AppState)
    ensures r.samplingCriteria == Some(criteria) && r.(samplingCriteria := s.samplingCriteria) == s
  {
    s.(samplingCriteria := Some(criteria))
  }

  function SetSagaId(s: AppState, sagaId: string): (r: AppState)
    ensures r.sagaId == Some(sagaId) && r.(sagaId := s.sagaId) == s
  {
    s.(sagaId := Some(sagaId))
  }

  /** `setError`: record the error and show the error screen. */
  function SetError(s: AppState, message: string): (r: AppState)
    ensures r.error == Some(message) && r.currentStep == Error
    ensures r.(error := s.error, currentStep := s.currentStep) == s
  {
    s.(error := Some(message), currentStep := Error)
  }

  /** `setResults`: record the results and show the success screen. */
  function SetResults(s: AppState, results: Results): (r: AppState)
    ensures r.results == Some(results) && r.currentStep == Success
    ensures r.(results := s.results, currentStep := s.currentStep) == s
  {
    s.(results := Some(results), currentStep := Success)
  }

  /** The wizard's forward order; the error screen sits outside it. */
  function Rank(step: AppStep): (n: nat)
    ensures step != Error ==> n <= 6
  {
    match step
    case Loading => 0
    case Welcome => 1
    case AppSelection => 2
    case CountrySelection => 3
    case SamplingCriteria => 4
    case Processing => 5
    case Success => 6
    case Error => 7
  }

  /** `proceedToNextStep`. */
  function ProceedToNextStep(s: AppState): (r: AppState)
    ensures r.(currentStep := s.currentStep) == s
    ensures s.currentStep == Loading ==> r.currentStep == Welcome
    ensures s.currentStep == Welcome ==> r.currentStep == AppSelection
    ensures s.currentStep == Error ==> r.currentStep == Welcome
    ensures s.currentStep == AppSelection ==>
      r.currentStep == (if s.selectedApp.Some? then CountrySelection else AppSelection)
    ensures s.currentStep == CountrySelection ==>
      r.currentStep == (if s.selectedCountries.Some? && |s.selectedCountries.value| > 0
                        then SamplingCriteria else CountrySelection)
    ensures s.currentStep == SamplingCriteria ==>
      r.currentStep == (if s.samplingCriteria.Some? then Processing else SamplingCriteria)
    ensures s.currentStep == Processing || s.currentStep == Success ==> r == s
  {
    match s.currentStep
    case Loading => SetStep(s, Welcome)
    case Welcome => SetStep(s, AppSelection)
    case AppSelection => if s.selectedApp.Some? then SetStep(s, CountrySelection) else s
    case CountrySelection =>
      if s.selectedCountries.Some? && |s.selectedCountries.value| > 0 then SetStep(s, SamplingCriteria) else s
    case SamplingCriteria => if s.samplingCriteria.Some? then SetStep(s, Processing) else s
    case Error => SetStep(s, Welcome)
    case _ => s
  }

  /** `reset`. */
  function Reset(s: AppState): (r: AppState)
    ensures r.currentStep == Loading && !r.isAuthenticated
    ensures r.selectedApp == None && r.selectedCountries == None && r.samplingCriteria == None
    ensures r.results == None && r.error == None
    ensures r.jobId == None && r.sagaId == None
  {
    InitialState()
  }

  /**
   * Outside the error screen, proceeding never skips a screen and never goes
   * back: it stays or moves exactly one screen forward.
   */
  lemma ProceedAdvancesAtMostOne(s: AppState)
    requires s.currentStep != Error
    ensures var r := ProceedToNextStep(s);
      Rank(r.currentStep) == Rank(s.currentStep) || Rank(r.currentStep) == Rank(s.currentStep) + 1
  {
  }

  /** `n` presses of "next". */
  function ProceedTimes(s: AppState, n: nat): AppState
    decreases n
  {
    if n == 0 then s else ProceedToNextStep(ProceedTimes(s, n - 1))
  }

  /** The choice screen `k` (2, 3 or 4 in `Rank` order) needs before the wizard moves past it. */
  predicate Guard(k: nat, s: AppState) {
    if k == 2 then s.selectedApp.Some?
    else if k == 3 then s.selectedCountries.Some? && |s.selectedCountries.value| > 0
    else s.samplingCriteria.Some?
  }

  /** Without the choice screen `k` needs, the wizard never moves past screen `k`. */
  lemma {:induction false} NeverPastMissingChoice(s: AppState, n: nat, k: nat)
    requires 2 <= k <= 4 && Rank(s.currentStep) <= k
    ensures !Guard(k, s) ==> Rank(ProceedTimes(s, n).currentStep) <= k
    decreases n
  {
    if n > 0 {
      NeverPastMissingChoice(s, n - 1, k);
      ProceedKeepsChoices(s, n - 1);
    }
  }

  /**
   * Any run of "next" presses that starts at or before the app selection
   * screen and ends on the processing screen had an app, a non-empty country
   * list and sampling criteria chosen.
   */
  lemma ProcessingNeedsAllChoices(s: AppState, n: nat)
    requires Rank(s.currentStep) <= 2
    requires ProceedTimes(s, n).currentStep == Processing
    ensures s.selectedApp.Some?
    ensures s.selectedCountries.Some? && |s.selectedCountries.value| > 0
    ensures s.samplingCriteria.Some?
  {
    NeverPastMissingChoice(s, n, 2);
    NeverPastMissingChoice(s, n, 3);
    NeverPastMissingChoice(s, n, 4);
  }

  /** Proceeding only ever changes the current screen. */
  lemma {:induction false} ProceedKeepsChoices(s: AppState, n: nat)
    ensures ProceedTimes(s, n).(currentStep := s.currentStep) == s
    decreases n
  {
    if n > 0 {
      ProceedKeepsChoices(s, n - 1);
    }
  }
}

=== FILE: chat.dfy ===
/**
 * The chat screen: the country-flag lookup for retrieved reviews, and the
 * message list driven by the send button and the answer to each query.
 */
module Chat {
  import Text

  /** A flag emoji, identified by what it shows. */
  datatype Flag = RegionalFlag(code: string) | Globe | WhiteFlag

  /** The lower-case codes the flag table knows, besides `worldwide`. */
  const FlagCodes: set<string> := {
    "us", "gb", "de", "fr", "jp", "au", "ca", "br", "in", "cn", "kr", "it", "es", "nl", "se",
    "no", "dk", "fi", "pl", "ru", "mx", "ar", "cl", "pe", "co", "ve", "za", "ng", "eg", "sa",
    "ae", "tr", "il", "th", "sg", "my", "id", "ph", "vn", "nz", "ie", "ch", "at", "be", "pt",
    "gr", "cz", "hu", "ro", "bg", "hr", "si", "sk", "lt", "lv", "ee", "cy", "mt", "lu", "is",
    "mc", "li", "sm", "va", "ad"
  }

  const WorldwideKey: string := "worldwide"

  /**
   * A key of the flag table; every such key has two letters.
   */
  predicate Tabled(key: string) {
    |key| == 2 && key in FlagCodes
  }

  /** `getCountryFlag`: look the lower-cased code up, defaulting to the white flag. */
  function GetCountryFlag(code: string): (f: Flag)
    ensures Tabled(Text.ToLower(code)) <==> f.RegionalFlag?
    ensures f.RegionalFlag? ==> f.code == Text.ToLower(code)
    ensures Text.ToLower(code) == WorldwideKey <==> f == Globe
  {
    var key := Text.ToLower(code);
    if key == WorldwideKey then Globe
    else if Tabled(key) then RegionalFlag(key)
    else WhiteFlag
  }

  /** The lookup ignores letter case. */
  lemma FlagIgnoresCase(code: string)
    ensures GetCountryFlag(Text.ToLower(code)) == GetCountryFlag(code)
  {
    Text.ToLowerIdempotent(code);
  }

  /** `US` and `us` show the same flag, the United States one. */
  lemma UpperAndLowerAgree()
    ensures GetCountryFlag("US") == GetCountryFlag("us") == RegionalFlag("us")
    ensures GetCountryFlag("Worldwide") == Globe
    ensures GetCountryFlag("XYZ") == WhiteFlag
  {
    assert Text.ToLower("US") == "us";
    assert Text.ToLower("us") == "us";
    assert Text.ToLower("Worldwide") == WorldwideKey;
    assert Text.ToLower("XYZ") == "xyz";
  }

  datatype Role = User | Assistant

  /** A chat bubble (its id, timestamp and retrieved reviews are left out). */
  datatype ChatMessage = ChatMessage(role: Role, content: string)

  datatype ChatState = ChatState(messages: seq<ChatMessage>, input: string, isLoading: bool)

  /** The answer to one query: `sendRAGQuery` resolved or threw. */
  datatype QueryOutcome = Answered(answer: string) | QueryFailed

  const ErrorReply: string :=
    "Sorry, I encountered an error while processing your request. Please check your connection and try again."

  /** The first render: the assistant's greeting alone, an empty input, idle. */
  function Initial(greeting: string): (s: ChatState)
    ensures s.messages == [ChatMessage(Assistant, greeting)]
    ensures s.input == "" && !s.isLoading
  {
    ChatState([ChatMessage(Assistant, greeting)], "", false)
  }

  /** Typing into the input. */
  function SetInput(s: ChatState, text: string): (r: ChatState)
    ensures r.input == text && r.messages == s.messages && r.isLoading == s.isLoading
  {
    s.(input := text)
  }

  /** The query a send would issue, if the guard lets it through. */
  datatype Send = Send(next: ChatState, query: string)

  /** The send guard: something other than spaces typed, and no query in flight. */
  predicate CanSend(s: ChatState) {
    Text.Trim(s.input) != "" && !s.isLoading
  }

  /**
   * `handleSendMessage` up to the query: append the trimmed input as the
   * user's message, clear the input and mark loading.
   */
  function SendMessage(s: ChatState): (r: Send)
    ensures !CanSend(s) ==> r.next == s
    ensures CanSend(s) ==>
      && r.next.messages == s.messages + [ChatMessage(User, Text.Trim(s.input))]
      && r.next.input == "" && r.next.isLoading
      && r.query == Text.Trim(s.input)
  {
    if !CanSend(s) then Send(s, "")
    else
      var query := Text.Trim(s.input);
      Send(ChatState(s.messages + [ChatMessage(User, query)], "", true), query)
  }

  /** The query settles: exactly one assistant message, the answer or the error reply, and loading ends. */
  function Resolve(s: ChatState, outcome: QueryOutcome): (r: ChatState)
    ensures |r.messages| == |s.messages| + 1 && r.messages[..|s.messages|] == s.messages
    ensures r.messages[|s.messages|].role == Assistant
    ensures outcome.Answered? ==> r.messages[|s.messages|].content == outcome.answer
    ensures outcome.QueryFailed? ==> r.messages[|s.messages|].content == ErrorReply
    ensures !r.isLoading && r.input == s.input
  {
    var reply := match outcome
      case Answered(a) => a
      case QueryFailed => ErrorReply;
    s.(messages := s.messages + [ChatMessage(Assistant, reply)], isLoading := false)
  }

  /** A blank input never sends, whatever else is going on. */
  lemma BlankInputNeverSends(s: ChatState)
    requires Text.AllSpace(s.input)
    ensures SendMessage(s).next == s
  {
    Text.TrimEmptyIff(s.input);
  }

  /**
   * One full exchange: a send followed by the settled query adds exactly the
   * user's trimmed message and one assistant reply, leaves the input empty
   * and ends idle, ready to send again.
   */
  lemma ExchangeAppendsTwo(s: ChatState, outcome: QueryOutcome)
    requires CanSend(s)
    ensures var r := Resolve(SendMessage(s).next, outcome);
      && r.messages[..|s.messages|] == s.messages
      && |r.messages| == |s.messages| + 2
      && r.messages[|s.messages|] == ChatMessage(User, Text.Trim(s.input))
      && r.messages[|s.messages| + 1].role == Assistant
      && r.input == "" && !r.isLoading
  {
    var mid := SendMessage(s).next;
    assert mid.messages[..|s.messages|] == s.messages;
  }

  /** While a query is in flight, a second send is ignored. */
  lemma NoSendWhileLoading(s: ChatState, text: string)
    requires CanSend(s)
    ensures var busy := SetInput(SendMessage(s).next, text);
      SendMessage(busy).next == busy
  {
  }
}

=== FILE: country_selection.dfy ===
/**
 * The country selection screen: a list of country codes, kept by the
 * wizard, plus the screen's own worldwide flag.
 */
module CountrySelection {
  import Seqs

  const WorldwideCode: string := "worldwide"

  datatype Selection = Selection(countries: seq<string>, isWorldwide: bool)

  /**
   * `toggleCountry`: leaving worldwide mode selects just this code;
   * otherwise the code is removed (every occurrence) if selected, appended
   * if not.
   */
  function ToggleCountry(s: Selection, code: string): (r: Selection)
    ensures !r.isWorldwide
    ensures s.isWorldwide ==> r.countries == [code]
    ensures !s.isWorldwide && code in s.countries ==>
      && code !in r.countries
      && (forall c :: c != code ==> (c in r.countries <==> c in s.countries))
      && r.countries == Seqs.RemoveAll(s.countries, code)
    ensures !s.isWorldwide && code !in s.countries ==> r.countries == s.countries + [code]
  {
    if s.isWorldwide then Selection([code], false)
    else Selection(Seqs.Toggle(s.countries, code), false)
  }

  /** `selectWorldwide`. */
  function SelectWorldwide(s: Selection): (r: Selection)
    ensures r.isWorldwide && r.countries == [WorldwideCode]
  {
    Selection([WorldwideCode], true)
  }

  /** `hasSelection`: the next button shows. */
  predicate HasSelection(s: Selection) {
    |s.countries| > 0 || s.isWorldwide
  }

  /** Toggling an unselected code twice, outside worldwide mode, restores the selection. */
  lemma ToggleTwiceRestores(s: Selection, code: string)
    requires !s.isWorldwide && code !in s.countries
    ensures ToggleCountry(ToggleCountry(s, code), code) == s
  {
    Seqs.ToggleTwiceAbsent(s.countries, code);
  }

  /** Deselecting keeps the other codes in their order: it works piecewise on any split. */
  lemma DeselectKeepsOrder(front: seq<string>, back: seq<string>, code: string)
    requires code in front + back
    ensures ToggleCountry(Selection(front + back, false), code).countries
         == Seqs.RemoveAll(front, code) + Seqs.RemoveAll(back, code)
  {
    Seqs.RemoveAllAppend(front, back, code);
  }

  /**
   * Selecting worldwide or a new code always leaves something to proceed
   * with; deselecting a code does exactly when some other code stays selected.
   */
  lemma SelectionAfterActions(s: Selection, code: string)
    ensures HasSelection(SelectWorldwide(s))
    ensures s.isWorldwide || code !in s.countries ==> HasSelection(ToggleCountry(s, code))
    ensures !s.isWorldwide && code in s.countries ==>
      (HasSelection(ToggleCountry(s, code)) <==> exists c :: c in s.countries && c != code)
  {
    var r := ToggleCountry(s, code);
    if !s.isWorldwide && code in s.countries && (exists c :: c in s.countries && c != code) {
      var c :| c in s.countries && c != code;
      assert c in r.countries;
    }
    if !s.isWorldwide && |r.countries| > 0 {
      assert r.countries[0] in r.countries;
    }
  }

  /** Toggling keeps a duplicate-free country list duplicate-free. */
  lemma ToggleKeepsNoDuplicates(s: Selection, code: string)
    requires Seqs.NoDuplicates(s.countries)
    ensures Seqs.NoDuplicates(ToggleCountry(s, code).countries)
  {
    if !s.isWorldwide {
      Seqs.ToggleNoDuplicates(s.countries, code);
    }
  }
}

=== FILE: date_range.dfy ===
/**
 * The date-range picker. Instants are milliseconds since the epoch;
 * `endOfToday` is the instant the picker computes as today at 23:59:59.999.
 * Date formatting is the caller-supplied `format`.
 */
module DateRangePicker {
  import opened Wrappers

  /** react-day-picker's `DateRange`: each end may be missing. */
  datatype Range = Range(from: Option<int>, to: Option<int>)

  /** Both ends chosen. */
  predicate Complete(r: Range) {
    r.from.Some? && r.to.Some?
  }

  /** The calendar's `disabled`: exactly the instants after the end of today. */
  predicate Disabled(date: int, endOfToday: int) {
    date > endOfToday
  }

  /**
   * `handleSelect`: pull an end after today back to the end of today, then
   * pull an end before the start up to the start. The start never changes.
   */
  function HandleSelect(range: Option<Range>, endOfToday: int): (r: Option<Range>)
    ensures range.None? ==> r.None?
    ensures range.Some? ==> r.Some? && r.value.from == range.value.from
    ensures range.Some? ==> (r.value.to.Some? <==> range.value.to.Some?)
    ensures range.Some? && Complete(range.value) ==> r.value.from.value <= r.value.to.value
    ensures range.Some? && range.value.to.Some? && range.value.from.Some? ==>
      r.value.to.value == Max(Min(range.value.to.value, endOfToday), range.value.from.value)
    ensures range.Some? && range.value.to.Some? && range.value.from.None? ==>
      r.value.to.value == Min(range.value.to.value, endOfToday)
    ensures range.Some? && range.value.to.Some? && (range.value.from.None? || !Disabled(range.value.from.value, endOfToday)) ==>
      !Disabled(r.value.to.value, endOfToday)
  {
    match range
    case None => None
    case Some(rg) =>
      var clamped := if rg.to.Some? && rg.to.value > endOfToday then rg.(to := Some(endOfToday)) else rg;
      var ordered :=
        if clamped.from.Some? && clamped.to.Some? && clamped.from.value > clamped.to.value
        then clamped.(to := clamped.from) else clamped;
      Some(ordered)
  }

  function Min(a: int, b: int): int { if a <= b then a else b }
  function Max(a: int, b: int): int { if a >= b then a else b }

  /** The popover after a selection: it closes once both ends are chosen, otherwise stays as it was. */
  function OpenAfterSelect(open: bool, range: Option<Range>, endOfToday: int): (r: bool)
    ensures var sel := HandleSelect(range, endOfToday);
      (sel.Some? && Complete(sel.value) ==> !r) && (!(sel.Some? && Complete(sel.value)) ==> r == open)
    ensures r ==> open
  {
    var sel := HandleSelect(range, endOfToday);
    if sel.Some? && Complete(sel.value) then false else open
  }

  /** What the picker's button reads. */
  datatype Label = Placeholder(text: string) | Single(day: string) | Span(first: string, last: string)

  /** `formatDateRange`: placeholder, one day, or "first - last". */
  function FormatDateRange(range: Option<Range>, placeholder: string, format: int -> string): (l: Label)
    ensures range.None? || range.value.from.None? ==> l == Placeholder(placeholder)
    ensures range.Some? && range.value.from.Some? && range.value.to.None? ==> l == Single(format(range.value.from.value))
    ensures range.Some? && Complete(range.value) ==> l == Span(format(range.value.from.value), format(range.value.to.value))
  {
    if range.None? || range.value.from.None? then Placeholder(placeholder)
    else if range.value.to.None? then Single(format(range.value.from.value))
    else Span(format(range.value.from.value), format(range.value.to.value))
  }

  /** The rendered text of a label. */
  function LabelText(l: Label): string {
    match l
    case Placeholder(t) => t
    case Single(d) => d
    case Span(a, b) => a + " - " + b
  }

  /** Selecting an already-adjusted range changes nothing more. */
  lemma HandleSelectIdempotent(range: Option<Range>, endOfToday: int)
    ensures HandleSelect(HandleSelect(range, endOfToday), endOfToday) == HandleSelect(range, endOfToday)
  {
  }

  /**
   * With a start the calendar allows, a chosen end always lands in the
   * calendar's allowed days and not before the start.
   */
  lemma SelectionStaysSelectable(range: Range, endOfToday: int)
    requires Complete(range) && !Disabled(range.from.value, endOfToday)
    ensures var r := HandleSelect(Some(range), endOfToday).value;
      Complete(r) && !Disabled(r.to.value, endOfToday) && r.from.value <= r.to.value
      && OpenAfterSelect(true, Some(range), endOfToday) == false
  {
  }

  /**
   * An open popover closes on a selection exactly when the button then reads
   * as a span of two days.
   */
  lemma ClosingSelectShowsSpan(range: Option<Range>, endOfToday: int, placeholder: string, format: int -> string)
    ensures var shown := FormatDateRange(HandleSelect(range, endOfToday), placeholder, format);
      !OpenAfterSelect(true, range, endOfToday) <==> shown.Span?
  {
  }
}

=== FILE: error_info.dfy ===
/** The error screen's classification of an error message by keyword. */
module ErrorInfo {
  import Text

  /** The error screen's default text, shown for an empty message. */
  const DefaultMessage: string :=
    "We" + " " + "encountered" + " " + "an" + " " + "unexpected" + " " + "error" + " "
    + "while" + " " + "processing" + " " + "your" + " " + "request."

  datatype Kind = NetworkError | RequestTimeout | AuthenticationError | UnexpectedError

  /** What the screen shows (the icon is left out). */
  datatype Info = Info(kind: Kind, title: string, description: string, suggestion: string)

  /** `error.message || default`. */
  function EffectiveMessage(message: string): (m: string)
    ensures message != "" ==> m == message
    ensures message == "" ==> m == DefaultMessage
  {
    if message == "" then DefaultMessage else message
  }

  predicate MentionsNetwork(m: string) {
    Text.Includes(m, "network") || Text.Includes(m, "connection")
  }

  /**
   * `getErrorInfo`: the first matching keyword group decides, in the order
   * network/connection, timeout, auth; anything else is unexpected and shows
   * the message itself.
   */
  function GetErrorInfo(message: string): (info: Info)
    ensures var m := EffectiveMessage(message);
      && (MentionsNetwork(m) <==> info.kind == NetworkError)
      && (info.kind == RequestTimeout <==> !MentionsNetwork(m) && Text.Includes(m, "timeout"))
      && (info.kind == AuthenticationError <==>
            !MentionsNetwork(m) && !Text.Includes(m, "timeout") && Text.Includes(m, "auth"))
      && (info.kind == UnexpectedError <==>
            !MentionsNetwork(m) && !Text.Includes(m, "timeout") && !Text.Includes(m, "auth"))
      && (info.kind == UnexpectedError ==> info.description == m)
  {
    var m := EffectiveMessage(message);
    if MentionsNetwork(m) then
      Info(NetworkError, "Network Error", "Please check your internet connection and try again.",
           "Make sure you have a stable internet connection.")
    else if Text.Includes(m, "timeout") then
      Info(RequestTimeout, "Request Timeout", "The request took too long to complete.",
           "The server might be busy. Please try again in a moment.")
    else if Text.Includes(m, "auth") then
      Info(AuthenticationError, "Authentication Error", "There was an issue with your authentication.",
           "Please restart the app from Telegram.")
    else
      Info(UnexpectedError, "Unexpected Error", m, "If this problem persists, please contact support.")
  }

  /** A message mentioning the network wins over every later keyword. */
  lemma NetworkWins(message: string)
    requires message != "" && Text.Includes(message, "connection") && Text.Includes(message, "timeout")
    ensures GetErrorInfo(message).kind == NetworkError
  {
  }

  /** Appending text never demotes a network message: containment survives extension. */
  lemma NetworkSurvivesSuffix(message: string, more: string)
    requires message != "" && MentionsNetwork(message)
    ensures GetErrorInfo(message + more).kind == NetworkError
  {
    if Text.Includes(message, "network") {
      IncludesExtends(message, more, "network");
    } else {
      IncludesExtends(message, more, "connection");
    }
  }

  lemma IncludesExtends(s: string, more: string, sub: string)
    requires Text.Includes(s, sub)
    ensures Text.Includes(s + more, sub)
  {
    Text.IncludesIff(s, sub);
    var i :| Text.OccursAt(s, sub, i);
    assert (s + more)[i..i + |sub|] == s[i..i + |sub|];
    assert Text.OccursAt(s + more, sub, i);
    Text.IncludesIff(s + more, sub);
  }

  /**
   * A space-free keyword that no word of the default text contains is not in
   * the default text.
   */
  lemma NotInDefault(k: string)
    requires |k| > 0 && ' ' !in k
    requires !Text.Includes("We", k) && !Text.Includes("encountered", k) && !Text.Includes("an", k)
    requires !Text.Includes("unexpected", k) && !Text.Includes("error", k) && !Text.Includes("while", k)
    requires !Text.Includes("processing", k) && !Text.Includes("your", k) && !Text.Includes("request.", k)
    ensures !Text.Includes(DefaultMessage, k)
  {
    var p := "We";
    Text.IncludesAcrossSpace(p, "encountered", k);
    p := p + " " + "encountered";
    Text.IncludesAcrossSpace(p, "an", k);
    p := p + " " + "an";
    Text.IncludesAcrossSpace(p, "unexpected", k);
    p := p + " " + "unexpected";
    Text.IncludesAcrossSpace(p, "error", k);
    p := p + " " + "error";
    Text.IncludesAcrossSpace(p, "while", k);
    p := p + " " + "while";
    Text.IncludesAcrossSpace(p, "processing", k);
    p := p + " " + "processing";
    Text.IncludesAcrossSpace(p, "your", k);
    p := p + " " + "your";
    Text.IncludesAcrossSpace(p, "request.", k);
    p := p + " " + "request.";
    assert p == DefaultMessage;
  }

  /** An empty message is shown as the default text, which mentions no keyword. */
  lemma EmptyMessageIsUnexpected()
    ensures GetErrorInfo("") == Info(UnexpectedError, "Unexpected Error", DefaultMessage,
                                     "If this problem persists, please contact support.")
  {
    NotInDefault("network");
    NotInDefault("connection");
    NotInDefault("timeout");
    NotInDefault("auth");
  }

  /** Matching is case-sensitive: an upper-case keyword is not recognised. */
  lemma CaseSensitive()
    ensures GetErrorInfo("Network").kind == UnexpectedError
    ensures GetErrorInfo("network").kind == NetworkError
  {
    assert !Text.Includes("Network", "network");
    assert !Text.Includes("Network", "connection");
    assert !Text.Includes("Network", "timeout");
    assert !Text.Includes("Network", "auth");
    assert Text.Includes("network", "network");
  }
}

=== FILE: multi_select.dfy ===
/** The multi-select widget: a list of chosen options toggled one at a time. */
module MultiSelect {
  import Seqs

  /** `handleUnselect`: drop every occurrence of the item, keeping the rest in order. */
  function Unselect(value: seq<string>, item: string): (r: seq<string>)
    ensures item !in r
    ensures forall x :: x != item ==> (x in r <==> x in value)
    ensures multiset(r) == multiset(value)[item := 0]
  {
    Seqs.RemoveAllMultiset(value, item);
    Seqs.RemoveAll(value, item)
  }

  /** The `onSelect` of an option: unselect it when chosen, append it otherwise. */
  function OnSelect(value: seq<string>, option: string): (r: seq<string>)
    ensures option in value ==> r == Unselect(value, option)
    ensures option !in value ==> r == value + [option]
    ensures option in r <==> option !in value
  {
    if option in value then Unselect(value, option) else value + [option]
  }

  /** Unselecting keeps the order of what remains: it works piecewise on any split. */
  lemma UnselectKeepsOrder(front: seq<string>, back: seq<string>, item: string)
    ensures Unselect(front + back, item) == Unselect(front, item) + Unselect(back, item)
  {
    Seqs.RemoveAllAppend(front, back, item);
  }

  /** Selecting an absent option twice restores the value. */
  lemma SelectTwiceRestores(value: seq<string>, option: string)
    requires option !in value
    ensures OnSelect(OnSelect(value, option), option) == value
  {
    Seqs.ToggleTwiceAbsent(value, option);
  }

  /** Selecting keeps a duplicate-free value duplicate-free. */
  lemma SelectKeepsNoDuplicates(value: seq<string>, option: string)
    requires Seqs.NoDuplicates(value)
    ensures Seqs.NoDuplicates(OnSelect(value, option))
  {
    Seqs.ToggleNoDuplicates(value, option);
  }
}

=== FILE: progress.dfy ===
/**
 * The processing screen's progress reducer: a fixed ordered list of pipeline
 * steps, a progress percentage and a completion flag, driven by step-status
 * messages from the socket and, while disconnected, by a fallback tick.
 * One message is applied as the source's code reads, in sequence: rewrite
 * the matching step (and the progress it implies), then the completion check,
 * then the failure check. The callbacks fired are returned as `Signal`s.
 */
module Progress {
  import opened Wrappers
  import T = Transport

  /** One pipeline step as displayed (icons, descriptions and images left out). */
  datatype StepInfo = StepInfo(
    step: string,
    status: string,
    message: string,
    isActive: bool,
    isCompleted: bool,
    isFailed: bool)

  datatype Screen = Screen(steps: seq<StepInfo>, progress: real, isProcessingComplete: bool)

  /** The caller's callbacks `onProcessingComplete` and `onProcessingError`. */
  datatype Signal = ProcessingComplete | ProcessingError(message: string)

  datatype Reaction = Reaction(next: Screen, signals: seq<Signal>)

  const ExtractStep: string := "extract"
  const PrepareStep: string := "prepare"
  const FallbackCeiling: real := 90.0

  /** `PROCESSING_STEPS`. */
  const ProcessingSteps: seq<StepInfo> := [
    StepInfo(ExtractStep, "running", "Fetching app reviews...", false, false, false),
    StepInfo(PrepareStep, "running", "Preparing insights...", false, false, false)
  ]

  /** The screen's first render. */
  function Initial(): (s: Screen)
    ensures |s.steps| == 2 && s.steps[0].step == ExtractStep && s.steps[1].step == PrepareStep
    ensures forall i :: 0 <= i < |s.steps| ==> !s.steps[i].isActive && !s.steps[i].isCompleted && !s.steps[i].isFailed
    ensures s.progress == 0.0 && !s.isProcessingComplete
  {
    Screen(ProcessingSteps, 0.0, false)
  }

  /** No two steps share a name. */
  predicate UniqueNames(steps: seq<StepInfo>) {
    forall i, j :: 0 <= i < j < |steps| ==> steps[i].step != steps[j].step
  }

  /** Some step carries this name. */
  predicate Known(steps: seq<StepInfo>, name: string) {
    exists i :: 0 <= i < |steps| && steps[i].step == name
  }

  /** Number of steps flagged completed. */
  function CompletedCount(steps: seq<StepInfo>): (n: nat)
    ensures n <= |steps|
    decreases |steps|
  {
    if |steps| == 0 then 0
    else CompletedCount(steps[..|steps| - 1]) + (if steps[|steps| - 1].isCompleted then 1 else 0)
  }

  /** The rewrite of one step by a message: status, flags, and message unless empty. */
  function Rewrite(info: StepInfo, m: T.Message): (r: StepInfo)
    ensures info.step != m.step ==> r == info
    ensures info.step == m.step ==>
      && r.step == info.step && r.status == m.status
      && (r.isActive <==> m.status == "running")
      && (r.isCompleted <==> m.status == "completed")
      && (r.isFailed <==> m.status == "failed")
      && !(r.isActive && r.isCompleted) && !(r.isActive && r.isFailed) && !(r.isCompleted && r.isFailed)
      && r.message == (if m.contextMessage != "" then m.contextMessage else info.message)
  {
    if info.step == m.step then
      info.(status := m.status,
            message := if m.contextMessage != "" then m.contextMessage else info.message,
            isActive := m.status == "running",
            isCompleted := m.status == "completed",
            isFailed := m.status == "failed")
    else info
  }

  /** The `prevSteps.map(...)` of `handleWebSocketMessage`. */
  function RewriteSteps(steps: seq<StepInfo>, m: T.Message): (r: seq<StepInfo>)
    ensures |r| == |steps|
    ensures forall i :: 0 <= i < |steps| ==> r[i] == Rewrite(steps[i], m)
    ensures forall i :: 0 <= i < |steps| ==> r[i].step == steps[i].step
    ensures !Known(steps, m.step) ==> r == steps
  {
    seq(|steps|, i requires 0 <= i < |steps| => Rewrite(steps[i], m))
  }

  /**
   * The progress the step rewrite sets: on `completed` for a known step,
   * one more than the steps completed BEFORE the rewrite, out of all steps.
   */
  function ProgressAfterRewrite(steps: seq<StepInfo>, progress: real, m: T.Message): (p: real)
    ensures m.status == "completed" && Known(steps, m.step) ==>
      p == (CompletedCount(steps) + 1) as real / |steps| as real * 100.0
    ensures !(m.status == "completed" && Known(steps, m.step)) ==> p == progress
  {
    if m.status == "completed" && Known(steps, m.step) then
      (CompletedCount(steps) + 1) as real / |steps| as real * 100.0
    else progress
  }

  /** `handleWebSocketMessage`. */
  function HandleMessage(s: Screen, m: T.Message): (r: Reaction)
    ensures r.next.steps == RewriteSteps(s.steps, m)
    ensures var finishes := m.step == PrepareStep && m.status == "completed";
      && (finishes ==> r.next.isProcessingComplete && r.next.progress == 100.0)
      && (!finishes ==> r.next.isProcessingComplete == s.isProcessingComplete)
      && (!finishes && m.status == "completed" && Known(s.steps, m.step) ==>
            r.next.progress == (CompletedCount(s.steps) + 1) as real / |s.steps| as real * 100.0)
      && (!finishes && !(m.status == "completed" && Known(s.steps, m.step)) ==> r.next.progress == s.progress)
      && (ProcessingComplete in r.signals <==> finishes)
    ensures m.status == "failed" <==> r.signals == [ProcessingError("Processing failed at step: " + m.step)]
    ensures m.status != "failed" && !(m.step == PrepareStep && m.status == "completed") ==> r.signals == []
    ensures s.isProcessingComplete ==> r.next.isProcessingComplete
  {
    var steps := RewriteSteps(s.steps, m);
    var progress := ProgressAfterRewrite(s.steps, s.progress, m);
    var s1 := Screen(steps, progress, s.isProcessingComplete);
    var finishes := m.step == PrepareStep && m.status == "completed";
    var s2 := if finishes then s1.(isProcessingComplete := true, progress := 100.0) else s1;
    var completion := if finishes then [ProcessingComplete] else [];
    var failure := if m.status == "failed" then [ProcessingError("Processing failed at step: " + m.step)] else [];
    Reaction(s2, completion + failure)
  }

  /**
   * One tick of the fallback animation, `Math.random() * 2 + 1` being the
   * `increment`: never above the 90% ceiling, strictly rising below it.
   */
  function FallbackStep(prev: real, increment: real): (r: real)
    requires 1.0 <= increment < 3.0
    ensures r <= FallbackCeiling
    ensures prev < FallbackCeiling ==> prev < r
    ensures prev < FallbackCeiling ==> r <= prev + increment
    ensures prev >= FallbackCeiling ==> r == FallbackCeiling
  {
    if prev >= 90.0 then 90.0
    else if prev + increment < 90.0 then prev + increment else 90.0
  }

  /** The fallback interval runs only while not connected and not complete. */
  function FallbackTick(s: Screen, isConnected: bool, increment: real): (r: Screen)
    requires 1.0 <= increment < 3.0
    ensures isConnected || s.isProcessingComplete ==> r == s
    ensures !isConnected && !s.isProcessingComplete ==>
      r == s.(progress := FallbackStep(s.progress, increment)) && r.progress <= FallbackCeiling
  {
    if !isConnected && !s.isProcessingComplete then s.(progress := FallbackStep(s.progress, increment)) else s
  }

  /** The socket address: the saga id as a query parameter when one is given. */
  function SocketUrl(base: string, sagaId: Option<string>): (url: string)
    ensures sagaId.None? || sagaId == Some("") ==> url == base
    ensures sagaId.Some? && sagaId.value != "" ==>
      && |url| == |base| + 9 + |sagaId.value|
      && url[..|base|] == base
      && url[|base|..|base| + 9] == "?saga_id="
      && url[|base| + 9..] == sagaId.value
  {
    if sagaId.Some? && sagaId.value != "" then base + "?saga_id=" + sagaId.value else base
  }

  /** Progress agrees with the fresh count of completed steps. */
  predicate Consistent(s: Screen) {
    |s.steps| > 0 && s.progress == CompletedCount(s.steps) as real / |s.steps| as real * 100.0
  }

  /** Flipping one step to completed, and nothing else, adds one to the count. */
  lemma {:induction false} CountOneMore(a: seq<StepInfo>, b: seq<StepInfo>, k: nat)
    requires |a| == |b| && k < |a|
    requires forall i :: 0 <= i < |a| && i != k ==> a[i].isCompleted == b[i].isCompleted
    requires !a[k].isCompleted && b[k].isCompleted
    ensures CompletedCount(b) == CompletedCount(a) + 1
    decreases |a|
  {
    var n := |a| - 1;
    if k == n {
      CountSame(a[..n], b[..n]);
    } else {
      CountOneMore(a[..n], b[..n], k);
    }
  }

  /** Equal flags give equal counts. */
  lemma {:induction false} CountSame(a: seq<StepInfo>, b: seq<StepInfo>)
    requires |a| == |b|
    requires forall i :: 0 <= i < |a| ==> a[i].isCompleted == b[i].isCompleted
    ensures CompletedCount(a) == CompletedCount(b)
    decreases |a|
  {
    if |a| > 0 {
      CountSame(a[..|a| - 1], b[..|b| - 1]);
    }
  }

  /**
   * A `completed` message for a known step that was not yet completed keeps
   * progress equal to the fresh count: the formula and the count agree on
   * every event that is not a duplicate.
   */
  lemma FreshCompletionConsistent(s: Screen, m: T.Message, k: nat)
    requires UniqueNames(s.steps) && k < |s.steps| && s.steps[k].step == m.step
    requires m.step != PrepareStep && m.status == "completed"
    requires !s.steps[k].isCompleted
    ensures Consistent(HandleMessage(s, m).next)
  {
    var next := HandleMessage(s, m).next;
    CountOneMore(s.steps, next.steps, k);
  }

  /**
   * A duplicate `completed` message is counted twice: from the first render,
   * `extract` reported completed twice shows 100% with `prepare` still
   * pending and processing not complete.
   */
  lemma DuplicateCompletionCountedTwice(ctx: string)
    ensures var m := T.Message(ExtractStep, "completed", ctx);
      var s1 := HandleMessage(Initial(), m).next;
      var s2 := HandleMessage(s1, m).next;
      && s1.progress == 50.0 && s2.progress == 100.0
      && CompletedCount(s2.steps) == 1 && !s2.isProcessingComplete
  {
    var s0 := Initial();
    assert CompletedCount(s0.steps) == 0 by { assert s0.steps[..1][..0] == []; }
    ExtractCompletedOnPipeline(s0, ctx);
    ExtractCompletedOnPipeline(HandleMessage(s0, T.Message(ExtractStep, "completed", ctx)).next, ctx);
  }

  /**
   * Once every step is completed, a repeated `completed` for any step but
   * the last pushes progress past 100%: (N + 1) / N of the whole.
   */
  lemma ProgressExceedsHundred(s: Screen, m: T.Message)
    requires CompletedCount(s.steps) == |s.steps| && Known(s.steps, m.step)
    requires m.status == "completed" && m.step != PrepareStep
    ensures HandleMessage(s, m).next.progress == (|s.steps| + 1) as real / |s.steps| as real * 100.0
    ensures HandleMessage(s, m).next.progress > 100.0
  {
    var n := |s.steps| as real;
    assert n > 0.0;
    assert (n + 1.0) / n > 1.0;
  }

  /** `extract` completed on the two-step pipeline while `prepare` is pending. */
  lemma ExtractCompletedOnPipeline(s: Screen, ctx: string)
    requires |s.steps| == 2 && s.steps[0].step == ExtractStep && s.steps[1].step == PrepareStep
    requires !s.steps[1].isCompleted && !s.isProcessingComplete
    ensures var next := HandleMessage(s, T.Message(ExtractStep, "completed", ctx)).next;
      && |next.steps| == 2 && next.steps[0].step == ExtractStep && next.steps[1] == s.steps[1]
      && next.steps[0].isCompleted && CompletedCount(next.steps) == 1
      && next.progress == (CompletedCount(s.steps) + 1) as real / 2.0 * 100.0
      && !next.isProcessingComplete
  {
    var m := T.Message(ExtractStep, "completed", ctx);
    assert Known(s.steps, ExtractStep) by { assert s.steps[0].step == ExtractStep; }
    var next := HandleMessage(s, m).next;
    assert next.steps[..1][..0] == [];
  }

  /** Every `prepare`/`completed` fires `onProcessingComplete`; nothing guards a repeat. */
  lemma CompletionFiresEveryTime(s: Screen, ctx: string)
    ensures var m := T.Message(PrepareStep, "completed", ctx);
      var r1 := HandleMessage(s, m);
      var r2 := HandleMessage(r1.next, m);
      r1.signals == [ProcessingComplete] && r2.signals == [ProcessingComplete]
  {
  }

  /** A failure reported for an unknown step still fires `onProcessingError` and changes nothing else. */
  lemma UnknownFailureStillSignals(s: Screen, name: string, ctx: string)
    requires !Known(s.steps, name)
    ensures var r := HandleMessage(s, T.Message(name, "failed", ctx));
      r.next == s && r.signals == [ProcessingError("Processing failed at step: " + name)]
  {
  }

  /**
   * The happy path: extract running, extract completed, prepare running,
   * prepare completed shows 0, 50, 50 and 100 percent, and completion fires
   * once, on the last message.
   */
  lemma HappyPath(c1: string, c2: string, c3: string, c4: string)
    ensures var r1 := HandleMessage(Initial(), T.Message(ExtractStep, "running", c1));
      var r2 := HandleMessage(r1.next, T.Message(ExtractStep, "completed", c2));
      var r3 := HandleMessage(r2.next, T.Message(PrepareStep, "running", c3));
      var r4 := HandleMessage(r3.next, T.Message(PrepareStep, "completed", c4));
      && r1.next.progress == 0.0 && r2.next.progress == 50.0
      && r3.next.progress == 50.0 && r4.next.progress == 100.0
      && r1.signals == [] && r2.signals == [] && r3.signals == []
      && r4.signals == [ProcessingComplete] && r4.next.isProcessingComplete
  {
    var r1 := HandleMessage(Initial(), T.Message(ExtractStep, "running", c1));
    assert Known(Initial().steps, ExtractStep) by { assert Initial().steps[0].step == ExtractStep; }
    assert Known(r1.next.steps, ExtractStep) by { assert r1.next.steps[0].step == ExtractStep; }
    assert CompletedCount(r1.next.steps) == 0 by { assert r1.next.steps[..1][..0] == []; }
  }

  /** The fallback never reaches completion: from any start below 90%, ticks stay below 100%. */
  lemma FallbackNeverCompletes(s: Screen, connected: bool, increment: real)
    requires 1.0 <= increment < 3.0 && !s.isProcessingComplete && !connected
    ensures FallbackTick(s, connected, increment).progress < 100.0
    ensures !FallbackTick(s, connected, increment).isProcessingComplete
  {
  }
}

=== FILE: sampling.dfy ===
/**
 * The sampling criteria screen: a sampling mode, the versions chosen in
 * version mode, and the date range chosen in date-range mode.
 */
module Sampling {
  import opened Wrappers
  import AppFlow
  import DateRangePicker

  /** Milliseconds in a day. */
  const DayMs: int := 86_400_000

  /** `QUICK_SELECT_OPTIONS`, in days. */
  const QuickSelectDays: seq<nat> := [7, 30, 90]

  datatype Screen = Screen(mode: AppFlow.SamplingMode, versions: seq<string>, dateRange: Option<DateRangePicker.Range>)

  /** First render: date-range mode, nothing chosen. */
  function Initial(): (s: Screen)
    ensures s.mode == AppFlow.DateRange && s.versions == [] && s.dateRange == None
  {
    Screen(AppFlow.DateRange, [], None)
  }

  /** `handleModeChange`: version mode is refused; date-range mode clears the versions. */
  function HandleModeChange(s: Screen, mode: AppFlow.SamplingMode): (r: Screen)
    ensures mode == AppFlow.Version ==> r == s
    ensures mode == AppFlow.DateRange ==> r == s.(mode := AppFlow.DateRange, versions := [])
  {
    match mode
    case Version => s
    case DateRange => s.(mode := AppFlow.DateRange, versions := [])
  }

  /** `handleQuickSelect`: the last `days` days, ending now. */
  function HandleQuickSelect(s: Screen, now: int, days: int): (r: Screen)
    ensures r.mode == s.mode && r.versions == s.versions
    ensures r.dateRange.Some? && DateRangePicker.Complete(r.dateRange.value)
    ensures r.dateRange.value.to.value == now
    ensures now - r.dateRange.value.from.value == days * DayMs
  {
    s.(dateRange := Some(DateRangePicker.Range(Some(now - days * DayMs), Some(now))))
  }

  /** The picker's `onValueChange`. */
  function SetDateRange(s: Screen, range: Option<DateRangePicker.Range>): (r: Screen)
    ensures r.dateRange == range && r.mode == s.mode && r.versions == s.versions
  {
    s.(dateRange := range)
  }

  /** `canStart`: versions chosen in version mode, an ordered complete range in date-range mode. */
  predicate CanStart(s: Screen) {
    match s.mode
    case Version => |s.versions| > 0
    case DateRange =>
      s.dateRange.Some? && DateRangePicker.Complete(s.dateRange.value)
      && s.dateRange.value.from.value <= s.dateRange.value.to.value
  }

  /**
   * `handleStartAnalysis`: the criteria carry the versions only in version
   * mode and the two days (as `isoDay` renders them) only in date-range mode
   * with both ends chosen.
   */
  function BuildCriteria(s: Screen, isoDay: int -> string): (c: AppFlow.Criteria)
    ensures c.mode == s.mode
    ensures c.versions.Some? <==> s.mode == AppFlow.Version
    ensures c.versions.Some? ==> c.versions.value == s.versions
    ensures c.dateFrom.Some? <==> s.mode == AppFlow.DateRange && s.dateRange.Some? && DateRangePicker.Complete(s.dateRange.value)
    ensures c.dateFrom.Some? <==> c.dateTo.Some?
    ensures c.dateFrom.Some? ==>
      c.dateFrom.value == isoDay(s.dateRange.value.from.value) && c.dateTo.value == isoDay(s.dateRange.value.to.value)
  {
    var versions := if s.mode == AppFlow.Version then Some(s.versions) else None;
    var dated := s.mode == AppFlow.DateRange && s.dateRange.Some? && DateRangePicker.Complete(s.dateRange.value);
    AppFlow.Criteria(
      s.mode, versions,
      if dated then Some(isoDay(s.dateRange.value.from.value)) else None,
      if dated then Some(isoDay(s.dateRange.value.to.value)) else None)
  }

  /** The first render cannot start. */
  lemma InitialCannotStart()
    ensures !CanStart(Initial())
  {
  }

  /** Every offered quick selection can start. */
  lemma QuickSelectCanStart(s: Screen, now: int, days: nat)
    requires s.mode == AppFlow.DateRange && days in QuickSelectDays
    ensures CanStart(HandleQuickSelect(s, now, days))
  {
  }

  /** The screen's actions as events. */
  datatype Action =
    | ModeChange(mode: AppFlow.SamplingMode)
    | QuickSelect(now: int, days: int)
    | PickRange(range: Option<DateRangePicker.Range>, endOfToday: int)

  function Apply(s: Screen, a: Action): Screen {
    match a
    case ModeChange(m) => HandleModeChange(s, m)
    case QuickSelect(now, days) => HandleQuickSelect(s, now, days)
    case PickRange(range, eot) => SetDateRange(s, DateRangePicker.HandleSelect(range, eot))
  }

  function ApplyAll(s: Screen, acts: seq<Action>): Screen
    decreases |acts|
  {
    if |acts| == 0 then s else ApplyAll(Apply(s, acts[0]), acts[1..])
  }

  /**
   * Version mode is unreachable: whatever the user does, the screen stays in
   * date-range mode with no versions, so starting always needs an ordered
   * complete range, and a range from the picker is ordered as soon as it is
   * complete.
   */
  lemma {:induction false} AlwaysDateRangeMode(acts: seq<Action>)
    ensures var s := ApplyAll(Initial(), acts);
      && s.mode == AppFlow.DateRange && s.versions == []
      && (CanStart(s) <==> s.dateRange.Some? && DateRangePicker.Complete(s.dateRange.value)
                           && s.dateRange.value.from.value <= s.dateRange.value.to.value)
  {
    DateRangeModeKept(Initial(), acts);
  }

  lemma {:induction false} DateRangeModeKept(s: Screen, acts: seq<Action>)
    requires s.mode == AppFlow.DateRange && s.versions == []
    ensures ApplyAll(s, acts).mode == AppFlow.DateRange && ApplyAll(s, acts).versions == []
    decreases |acts|
  {
    if |acts| > 0 {
      DateRangeModeKept(Apply(s, acts[0]), acts[1..]);
    }
  }

  /** A range taken from the picker can start as soon as both ends are chosen. */
  lemma PickedCompleteRangeCanStart(s: Screen, range: DateRangePicker.Range, endOfToday: int)
    requires s.mode == AppFlow.DateRange && DateRangePicker.Complete(range)
    ensures CanStart(Apply(s, PickRange(Some(range), endOfToday)))
  {
  }

  /**
   * Whatever the start button lets through is a usable request: in
   * date-range mode the criteria carry both days of the range, in version
   * mode a non-empty version list.
   */
  lemma StartableCriteriaComplete(s: Screen, isoDay: int -> string)
    requires CanStart(s)
    ensures var c := BuildCriteria(s, isoDay);
      && (s.mode == AppFlow.DateRange ==>
            && c.dateFrom == Some(isoDay(s.dateRange.value.from.value))
            && c.dateTo == Some(isoDay(s.dateRange.value.to.value))
            && c.versions.None?)
      && (s.mode == AppFlow.Version ==>
            c.versions.Some? && |c.versions.value| > 0 && c.dateFrom.None? && c.dateTo.None?)
  {
  }
}

=== FILE: seqs.dfy ===
/**
 * Sequence operations shared by the selection widgets: removing every
 * occurrence of an item (`Array.prototype.filter(i => i !== x)`) and the
 * include-or-remove toggle built on it.
 */
module Seqs {

  /** `xs` without any occurrence of `x`, the rest in their original order. */
  function RemoveAll<T(==,!new)>(xs: seq<T>, x: T): (r: seq<T>)
    ensures x !in r
    ensures forall y :: y in r <==> y in xs && y != x
    ensures |r| <= |xs|
    decreases |xs|
  {
    if |xs| == 0 then []
    else if xs[|xs| - 1] == x then RemoveAll(xs[..|xs| - 1], x)
    else RemoveAll(xs[..|xs| - 1], x) + [xs[|xs| - 1]]
  }

  /** No element occurs twice. */
  predicate NoDuplicates<T(==,!new)>(xs: seq<T>) {
    forall i, j :: 0 <= i < j < |xs| ==> xs[i] != xs[j]
  }

  /**
   * Remove `x` if it is present, otherwise append it at the end: the toggle
   * shared by the country list and the multi-select.
   */
  function Toggle<T(==,!new)>(xs: seq<T>, x: T): (r: seq<T>)
    ensures x in xs ==> r == RemoveAll(xs, x)
    ensures x !in xs ==> r == xs + [x]
    ensures x in r <==> x !in xs
  {
    if x in xs then RemoveAll(xs, x) else xs + [x]
  }

  /** Removing an absent item changes nothing. */
  lemma {:induction false} RemoveAbsent<T(!new)>(xs: seq<T>, x: T)
    requires x !in xs
    ensures RemoveAll(xs, x) == xs
    decreases |xs|
  {
    if |xs| > 0 {
      var init := xs[..|xs| - 1];
      assert x !in init by {
        forall k | 0 <= k < |init| ensures init[k] != x {
          assert init[k] == xs[k];
        }
      }
      RemoveAbsent(init, x);
      assert init + [xs[|xs| - 1]] == xs;
    }
  }

  /**
   * Removal distributes over concatenation: the survivors of `a` come before
   * the survivors of `b`, so removal keeps the relative order of the rest.
   */
  lemma {:induction false} RemoveAllAppend<T(!new)>(a: seq<T>, b: seq<T>, x: T)
    ensures RemoveAll(a + b, x) == RemoveAll(a, x) + RemoveAll(b, x)
    decreases |b|
  {
    if |b| == 0 {
      assert a + b == a;
    } else {
      var binit := b[..|b| - 1];
      var last := b[|b| - 1];
      assert (a + b)[..|a + b| - 1] == a + binit;
      assert (a + b)[|a + b| - 1] == last;
      RemoveAllAppend(a, binit, x);
    }
  }

  /** Removal keeps exactly the other items, with their multiplicities. */
  lemma {:induction false} RemoveAllMultiset<T(!new)>(xs: seq<T>, x: T)
    ensures multiset(RemoveAll(xs, x)) == multiset(xs)[x := 0]
    decreases |xs|
  {
    if |xs| > 0 {
      var init := xs[..|xs| - 1];
      assert xs == init + [xs[|xs| - 1]];
      RemoveAllMultiset(init, x);
    }
  }

  /** Removal keeps a duplicate-free sequence duplicate-free. */
  lemma {:induction false} RemoveAllNoDuplicates<T(!new)>(xs: seq<T>, x: T)
    requires NoDuplicates(xs)
    ensures NoDuplicates(RemoveAll(xs, x))
    decreases |xs|
  {
    if |xs| > 0 {
      var init := xs[..|xs| - 1];
      var last := xs[|xs| - 1];
      assert NoDuplicates(init) by {
        forall i, j | 0 <= i < j < |init| ensures init[i] != init[j] {
          assert init[i] == xs[i] && init[j] == xs[j];
        }
      }
      RemoveAllNoDuplicates(init, x);
      if last != x {
        assert last !in init by {
          forall k | 0 <= k < |init| ensures init[k] != last {
            assert init[k] == xs[k];
          }
        }
      }
    }
  }

  /** Toggling an absent item twice restores the sequence. */
  lemma ToggleTwiceAbsent<T(!new)>(xs: seq<T>, x: T)
    requires x !in xs
    ensures Toggle(Toggle(xs, x), x) == xs
  {
    RemoveAllAppend(xs, [x], x);
    RemoveAbsent(xs, x);
    assert RemoveAll([x], x) == [];
  }

  /** Toggling keeps a duplicate-free sequence duplicate-free. */
  lemma ToggleNoDuplicates<T(!new)>(xs: seq<T>, x: T)
    requires NoDuplicates(xs)
    ensures NoDuplicates(Toggle(xs, x))
  {
    if x in xs {
      RemoveAllNoDuplicates(xs, x);
    } else {
      var r := xs + [x];
      forall i, j | 0 <= i < j < |r| ensures r[i] != r[j] {
        if j == |xs| {
          assert r[i] == xs[i];
        } else {
          assert r[i] == xs[i] && r[j] == xs[j];
        }
      }
    }
  }
}

=== FILE: socket_hook.dfy ===
/**
 * The `useWebSocket` hook: it owns at most one current `Transport.Service`,
 * mirrors the service's callbacks into `isConnected` and `lastMessage`, and
 * forwards each callback to the caller. The effects of a step are the
 * service's effects; each callback effect is also the forwarded call to the
 * caller. A service the hook replaces or drops is disconnected but keeps its
 * handlers, which still point at the hook's callbacks; the hook keeps such
 * services as `retired` so that their late events can be delivered.
 */
module SocketHook {
  import opened Wrappers
  import T = Transport

  datatype Hook = Hook(
    url: string,
    urlAccepted: bool,
    service: Option<T.Service>,
    isConnected: bool,
    lastMessage: Option<T.Message>,
    retired: seq<T.Service>)

  datatype HookTransition = HookTransition(next: Hook, effects: seq<T.Effect>)

  /** The hook's first render: no service yet, not connected, no message. */
  function Initial(url: string, urlAccepted: bool): (h: Hook)
    ensures h.service == None && !h.isConnected && h.lastMessage == None
    ensures h.retired == []
  {
    Hook(url, urlAccepted, None, false, None, [])
  }

  /** `handleMessage`: remember the message as `lastMessage`, then forward it. */
  function HandleMessage(h: Hook, m: T.Message): (r: Hook)
    ensures r.lastMessage == Some(m)
    ensures r.isConnected == h.isConnected && r.service == h.service
  {
    h.(lastMessage := Some(m))
  }

  /** `handleOpen`: mark connected, then forward. */
  function HandleOpen(h: Hook): (r: Hook)
    ensures r.isConnected
    ensures r.lastMessage == h.lastMessage && r.service == h.service
  {
    h.(isConnected := true)
  }

  /** `handleClose`: mark disconnected, then forward. */
  function HandleClose(h: Hook): (r: Hook)
    ensures !r.isConnected
    ensures r.lastMessage == h.lastMessage && r.service == h.service
  {
    h.(isConnected := false)
  }

  /** The hook's reaction to one effect of its service; non-callback effects change nothing. */
  function OnEffect(h: Hook, e: T.Effect): (r: Hook)
    ensures r.service == h.service && r.retired == h.retired
    ensures e.CallOnOpen? ==> r.isConnected && r.lastMessage == h.lastMessage
    ensures e.CallOnClose? ==> !r.isConnected && r.lastMessage == h.lastMessage
    ensures e.CallOnMessage? ==> r.lastMessage == Some(e.message) && r.isConnected == h.isConnected
    ensures !IsCallback(e) ==> r == h
  {
    match e
    case CallOnOpen => HandleOpen(h)
    case CallOnClose => HandleClose(h)
    case CallOnMessage(m) => HandleMessage(h, m)
    case _ => h
  }

  /** The hook's reaction to the service's effects, in order. */
  function OnEffects(h: Hook, effs: seq<T.Effect>): (r: Hook)
    ensures r.service == h.service && r.retired == h.retired
    decreases |effs|
  {
    if |effs| == 0 then h else OnEffects(OnEffect(h, effs[0]), effs[1..])
  }

  /**
   * A socket or timer event of the current service. Without a current
   * service there is nothing for it to reach; events of retired services go
   * through `DeliverRetired`.
   */
  function Deliver(h: Hook, e: T.Event): (t: HookTransition)
    ensures h.service.None? ==> t == HookTransition(h, [])
    ensures h.service.Some? ==> t.next.service == Some(T.Step(h.service.value, e).next)
    ensures h.service.Some? ==> t.effects == T.Step(h.service.value, e).effects
    ensures t.next.retired == h.retired
  {
    match h.service
    case None => HookTransition(h, [])
    case Some(svc) =>
      var st := T.Step(svc, e);
      HookTransition(OnEffects(h.(service := Some(st.next)), st.effects), st.effects)
  }

  /**
   * A socket or timer event of the `i`th retired service. Its handlers still
   * call the hook's callbacks, so a late `onclose` clears `isConnected` and
   * is forwarded even though the service is no longer the hook's.
   */
  function DeliverRetired(h: Hook, i: nat, e: T.Event): (t: HookTransition)
    ensures i >= |h.retired| ==> t == HookTransition(h, [])
    ensures i < |h.retired| ==>
      && t.effects == T.Step(h.retired[i], e).effects
      && t.next.retired == h.retired[i := T.Step(h.retired[i], e).next]
    ensures t.next.service == h.service
  {
    if i >= |h.retired| then HookTransition(h, [])
    else
      var st := T.Step(h.retired[i], e);
      HookTransition(OnEffects(h.(retired := h.retired[i := st.next]), st.effects), st.effects)
  }

  /** The services a hook retires when it lets go of its current one. */
  function Retire(h: Hook): (rs: seq<T.Service>)
    ensures h.service.None? ==> rs == h.retired
    ensures h.service.Some? ==> rs == h.retired + [T.OnDisconnect(h.service.value).next]
  {
    if h.service.Some? then h.retired + [T.OnDisconnect(h.service.value).next] else h.retired
  }

  /**
   * `connect()`: disconnect the current service if any, then build a new
   * service and connect it. The hook ends with exactly the new service as its
   * current one; the old one is retired.
   */
  function Connect(h: Hook): (t: HookTransition)
    ensures t.next.service == Some(T.OnConnect(T.NewService(h.url, h.urlAccepted)).next)
    ensures t.next.service.value.reconnectAttempts == 0
    ensures h.service.Some? && h.service.value.socket.Some? ==>
      |t.effects| >= 1 && t.effects[0] == T.CloseSocket(Some(T.NormalClosure))
    ensures h.urlAccepted ==> T.OpenSocket(h.url) in t.effects
    ensures t.next.isConnected == h.isConnected && t.next.lastMessage == h.lastMessage
    ensures t.next.retired == Retire(h)
  {
    var closing := if h.service.Some? then T.OnDisconnect(h.service.value).effects else [];
    var opening := T.OnConnect(T.NewService(h.url, h.urlAccepted));
    HookTransition(h.(service := Some(opening.next), retired := Retire(h)), closing + opening.effects)
  }

  /**
   * `disconnect()`: disconnect and drop the service, retiring it; always not
   * connected afterwards.
   */
  function Disconnect(h: Hook): (t: HookTransition)
    ensures t.next.service == None && !t.next.isConnected
    ensures t.next.lastMessage == h.lastMessage
    ensures h.service.Some? ==> t.effects == T.OnDisconnect(h.service.value).effects
    ensures h.service.None? ==> t.effects == []
    ensures t.next.retired == Retire(h)
  {
    var effs := if h.service.Some? then T.OnDisconnect(h.service.value).effects else [];
    HookTransition(h.(service := None, isConnected := false, retired := Retire(h)), effs)
  }

  /** `send(data)`: forwarded only when a service exists. */
  function Send(h: Hook, payload: string): (t: HookTransition)
    ensures t.next == h
    ensures h.service.None? ==> t.effects == []
    ensures t.effects == [T.Transmit(payload)] <==> h.service.Some? && T.IsConnected(h.service.value)
  {
    match h.service
    case None => HookTransition(h, [])
    case Some(svc) => HookTransition(h, T.OnSend(svc, payload).effects)
  }

  /** A callback effect: one the hook reacts to. */
  predicate IsCallback(e: T.Effect) {
    e.CallOnOpen? || e.CallOnClose? || e.CallOnMessage?
  }

  /** Effects that are not callbacks leave the hook as it is. */
  lemma {:induction false} OnEffectsIgnoresOthers(h: Hook, effs: seq<T.Effect>)
    requires forall i :: 0 <= i < |effs| ==> !IsCallback(effs[i])
    ensures OnEffects(h, effs) == h
    decreases |effs|
  {
    if |effs| > 0 {
      assert OnEffect(h, effs[0]) == h;
      OnEffectsIgnoresOthers(h, effs[1..]);
    }
  }

  /** An `onopen` delivered to the hook's service leaves the hook connected. */
  lemma DeliverOpenConnects(h: Hook)
    requires h.service.Some?
    ensures Deliver(h, T.Opened).next.isConnected
  {
    assert T.Step(h.service.value, T.Opened).effects == [T.CallOnOpen];
  }

  /** An `onclose` delivered to the hook's service leaves the hook not connected. */
  lemma DeliverCloseDisconnects(h: Hook, code: int)
    requires h.service.Some?
    ensures !Deliver(h, T.ClosedWith(code)).next.isConnected
  {
    var st := T.Step(h.service.value, T.ClosedWith(code));
    var h1 := h.(service := Some(st.next));
    assert st.effects[0] == T.CallOnClose;
    OnEffectsIgnoresOthers(HandleClose(h1), st.effects[1..]);
  }

  /** An `onerror` delivered to the hook's service leaves `isConnected` and `lastMessage` alone. */
  lemma DeliverErrorKeepsFlags(h: Hook, observed: T.ReadyState)
    requires h.service.Some?
    ensures Deliver(h, T.Errored(observed)).next.isConnected == h.isConnected
    ensures Deliver(h, T.Errored(observed)).next.lastMessage == h.lastMessage
  {
    var st := T.Step(h.service.value, T.Errored(observed));
    assert st.effects == [T.CallOnError];
    assert st.effects[1..] == [];
  }

  /** A parsed frame becomes `lastMessage` and is forwarded; a malformed one changes nothing. */
  lemma DeliverFrameRecordsMessage(h: Hook, parsed: Option<T.Message>)
    requires h.service.Some?
    ensures parsed.Some? ==> Deliver(h, T.Frame(parsed)).next.lastMessage == parsed
    ensures parsed.Some? ==> Deliver(h, T.Frame(parsed)).effects == [T.CallOnMessage(parsed.value)]
    ensures parsed.None? ==> Deliver(h, T.Frame(parsed)).next == h && Deliver(h, T.Frame(parsed)).effects == []
  {
    var st := T.Step(h.service.value, T.Frame(parsed));
    assert st.next == h.service.value;
    if parsed.Some? {
      var h1 := h.(service := Some(st.next));
      assert st.effects[1..] == [];
      assert OnEffects(h1, st.effects) == OnEffects(HandleMessage(h1, parsed.value), []);
    }
  }

  /**
   * `connect()` followed by the new socket's `onopen` leaves the hook
   * connected on a fresh service with a zero counter, and `send` then
   * transmits.
   */
  lemma ConnectThenOpen(h: Hook, payload: string)
    requires h.urlAccepted
    ensures var h1 := Deliver(Connect(h).next, T.Opened).next;
      && h1.isConnected && h1.service.Some?
      && T.IsConnected(h1.service.value) && h1.service.value.reconnectAttempts == 0
      && h1.service.value.url == h.url
      && Send(h1, payload).effects == [T.Transmit(payload)]
  {
    var h0 := Connect(h).next;
    assert T.Step(h0.service.value, T.Opened).effects == [T.CallOnOpen];
  }

  /**
   * After `disconnect()` the hook has no current service: an event for the
   * current service changes nothing, no data is sent, and the hook is not
   * connected. The retired socket can still close (`LateCloseReachesHook`).
   */
  lemma DisconnectDropsCurrent(h: Hook, e: T.Event, payload: string)
    ensures var h1 := Disconnect(h).next;
      && Deliver(h1, e) == HookTransition(h1, [])
      && Send(h1, payload).effects == []
      && !h1.isConnected
  {
  }

  /**
   * The close that follows `disconnect()` still reaches the hook: it clears
   * `isConnected` (already false), forwards `onClose` to the caller, and
   * never reconnects.
   */
  lemma LateCloseReachesHook(h: Hook, code: int)
    requires h.service.Some?
    ensures var h1 := Disconnect(h).next;
      var t := DeliverRetired(h1, |h1.retired| - 1, T.ClosedWith(code));
      && t.effects == [T.CallOnClose]
      && !t.next.isConnected && t.next.service == None
      && !t.next.retired[|h1.retired| - 1].shouldReconnect
  {
    var h1 := Disconnect(h).next;
    var st := T.Step(h1.retired[|h1.retired| - 1], T.ClosedWith(code));
    assert st.effects == [T.CallOnClose];
    var h2 := h1.(retired := h1.retired[|h1.retired| - 1 := st.next]);
    assert OnEffects(h2, st.effects) == OnEffects(HandleClose(h2), []);
  }

  /**
   * A stale disconnect: after `connect()` replaces a live service and the
   * new socket opens, the old socket's late close still runs `handleClose`.
   * The hook then reports not connected while its current socket is OPEN.
   */
  lemma StaleCloseAfterReconnect(h: Hook, code: int)
    requires h.urlAccepted && h.service.Some?
    ensures var h1 := Deliver(Connect(h).next, T.Opened).next;
      var h2 := DeliverRetired(h1, |h.retired|, T.ClosedWith(code)).next;
      && h1.isConnected
      && !h2.isConnected
      && h2.service.Some? && T.IsConnected(h2.service.value)
  {
    var h0 := Connect(h).next;
    assert T.Step(h0.service.value, T.Opened).effects == [T.CallOnOpen];
    var h1 := Deliver(h0, T.Opened).next;
    assert h1.retired == h.retired + [T.OnDisconnect(h.service.value).next];
    var retiree := h1.retired[|h.retired|];
    var st := T.Step(retiree, T.ClosedWith(code));
    assert st.effects == [T.CallOnClose];
    var h2 := h1.(retired := h1.retired[|h.retired| := st.next]);
    assert OnEffects(h2, st.effects) == OnEffects(HandleClose(h2), []);
  }

  /**
   * Between the start of a closing handshake and `onclose` the hook still
   * reports connected, although its service is no longer connected and
   * drops what the hook sends.
   */
  lemma ClosingHandshakeKeepsFlag(h: Hook, payload: string)
    requires h.urlAccepted
    ensures var h1 := Deliver(Connect(h).next, T.Opened).next;
      var h2 := Deliver(h1, T.ClosingStarted).next;
      && h2.isConnected
      && h2.service.Some? && !T.IsConnected(h2.service.value)
      && Send(h2, payload).effects == []
  {
    var h0 := Connect(h).next;
    assert T.Step(h0.service.value, T.Opened).effects == [T.CallOnOpen];
    var h1 := Deliver(h0, T.Opened).next;
    assert T.Step(h1.service.value, T.ClosingStarted).effects == [];
  }
}

=== FILE: text.dfy ===
/**
 * The string primitives the screens use: `String.prototype.includes`,
 * `String.prototype.trim` and `String.prototype.toLowerCase`.
 */
module Text {

  /** `sub` occurs in `s` starting at index `i`. */
  ghost predicate OccursAt(s: string, sub: string, i: int) {
    0 <= i && i + |sub| <= |s| && s[i..i + |sub|] == sub
  }

  /** `s.includes(sub)`: case-sensitive substring containment. */
  predicate Includes(s: string, sub: string) {
    IncludesFrom(s, sub, 0)
  }

  /** `sub` occurs in `s` at index `i` or later; the scan of `includes`. */
  predicate IncludesFrom(s: string, sub: string, i: nat)
    decreases |s| - i
  {
    i + |sub| <= |s| && (MatchesAt(s, sub, i, 0) || IncludesFrom(s, sub, i + 1))
  }

  /** `sub[j..]` matches `s` from index `i + j`, one character at a time. */
  predicate MatchesAt(s: string, sub: string, i: nat, j: nat)
    requires i + |sub| <= |s| && j <= |sub|
    decreases |sub| - j
  {
    j == |sub| || (s[i + j] == sub[j] && MatchesAt(s, sub, i, j + 1))
  }

  lemma {:induction false} MatchesAtIff(s: string, sub: string, i: nat, j: nat)
    requires i + |sub| <= |s| && j <= |sub|
    ensures MatchesAt(s, sub, i, j) <==> s[i + j..i + |sub|] == sub[j..]
    decreases |sub| - j
  {
    if j < |sub| {
      MatchesAtIff(s, sub, i, j + 1);
      assert s[i + j..i + |sub|] == [s[i + j]] + s[i + j + 1..i + |sub|];
      assert sub[j..] == [sub[j]] + sub[j + 1..];
    }
  }

  /** The scan from `i` finds `sub` exactly when it occurs at some index from `i` on. */
  lemma {:induction false} IncludesFromIff(s: string, sub: string, i: nat)
    ensures IncludesFrom(s, sub, i) <==> exists k :: i <= k && OccursAt(s, sub, k)
    decreases |s| - i
  {
    if i + |sub| <= |s| {
      MatchesAtIff(s, sub, i, 0);
      IncludesFromIff(s, sub, i + 1);
      if IncludesFrom(s, sub, i) {
        if MatchesAt(s, sub, i, 0) {
          assert OccursAt(s, sub, i);
        }
      } else {
        forall k | i <= k ensures !OccursAt(s, sub, k) {
          if k == i {
            assert s[i..i + |sub|] != sub;
          }
        }
      }
    } else {
      forall k | i <= k ensures !OccursAt(s, sub, k) {
      }
    }
  }

  /** `Includes` holds exactly when `sub` occurs at some index of `s`. */
  lemma IncludesIff(s: string, sub: string)
    ensures Includes(s, sub) <==> exists i :: OccursAt(s, sub, i)
  {
    IncludesFromIff(s, sub, 0);
  }

  /**
   * A pattern without spaces that occurs in two words joined by a space
   * occurs in one of the words.
   */
  lemma IncludesAcrossSpace(a: string, b: string, sub: string)
    requires |sub| > 0 && ' ' !in sub
    ensures Includes(a + " " + b, sub) ==> Includes(a, sub) || Includes(b, sub)
  {
    var s := a + " " + b;
    IncludesIff(a, sub);
    IncludesIff(b, sub);
    IncludesIff(s, sub);
    forall k | OccursAt(s, sub, k) ensures OccursAt(a, sub, k) || OccursAt(b, sub, k - |a| - 1) {
      assert forall m :: 0 <= m < |sub| ==> s[k + m] == s[k..k + |sub|][m] == sub[m];
      assert s[|a|] == ' ';
      assert !(k <= |a| < k + |sub|);
      if k + |sub| <= |a| {
        assert s[k..k + |sub|] == a[k..k + |sub|];
      } else if k > |a| {
        assert s[|a| + 1..] == b;
        assert s[k..k + |sub|] == s[|a| + 1..][k - |a| - 1..k - |a| - 1 + |sub|];
      }
    }
  }

  /**
   * The characters `trim` removes: ECMAScript WhiteSpace (tab, vertical tab,
   * form feed, space, no-break space, byte-order mark and the Unicode Zs
   * spaces) and LineTerminator (line feed, carriage return, U+2028, U+2029).
   */
  predicate IsSpace(c: char) {
    || c == '\t' || c == '\U{000B}' || c == '\U{000C}' || c == ' '
    || c == '\U{00A0}' || c == '\U{FEFF}' || c == '\U{1680}'
    || ('\U{2000}' <= c <= '\U{200A}') || c == '\U{202F}' || c == '\U{205F}' || c == '\U{3000}'
    || c == '\n' || c == '\r' || c == '\U{2028}' || c == '\U{2029}'
  }

  /** Every character of `s` is a space. */
  predicate AllSpace(s: string) {
    forall i :: 0 <= i < |s| ==> IsSpace(s[i])
  }

  /** The first index at or after `i` that is not a space, or `|s|`. */
  function SkipSpaces(s: string, i: nat): (n: nat)
    requires i <= |s|
    ensures i <= n <= |s|
    ensures forall k :: i <= k < n ==> IsSpace(s[k])
    ensures n < |s| ==> !IsSpace(s[n])
    decreases |s| - i
  {
    if i < |s| && IsSpace(s[i]) then SkipSpaces(s, i + 1) else i
  }

  /** Just past the last non-space character in `s[lo..j]`, or `lo`. */
  function SkipSpacesBack(s: string, lo: nat, j: nat): (n: nat)
    requires lo <= j <= |s|
    ensures lo <= n <= j
    ensures forall k :: n <= k < j ==> IsSpace(s[k])
    ensures n > lo ==> !IsSpace(s[n - 1])
    decreases j
  {
    if j > lo && IsSpace(s[j - 1]) then SkipSpacesBack(s, lo, j - 1) else j
  }

  /**
   * `s.trim()`: `s` without its leading and trailing spaces. The result is a
   * contiguous slice of `s` that neither starts nor ends with a space, and
   * everything cut off on either side is space.
   */
  function Trim(s: string): (r: string)
    ensures exists i, j ::
      && 0 <= i <= j <= |s| && r == s[i..j]
      && (forall k :: 0 <= k < i ==> IsSpace(s[k]))
      && (forall k :: j <= k < |s| ==> IsSpace(s[k]))
    ensures |r| > 0 ==> !IsSpace(r[0]) && !IsSpace(r[|r| - 1])
  {
    var i := SkipSpaces(s, 0);
    var j := SkipSpacesBack(s, i, |s|);
    s[i..j]
  }

  /** Trimming leaves nothing exactly when the string is all spaces. */
  lemma TrimEmptyIff(s: string)
    ensures Trim(s) == "" <==> AllSpace(s)
  {
    var i, j :| 0 <= i <= j <= |s| && Trim(s) == s[i..j]
      && (forall k :: 0 <= k < i ==> IsSpace(s[k])) && (forall k :: j <= k < |s| ==> IsSpace(s[k]));
    if Trim(s) == "" {
      assert i == j;
    } else {
      var r := Trim(s);
      assert r[0] == s[i] && !IsSpace(s[i]);
    }
  }

  /** Lower-case one character (ASCII letters only). */
  function LowerChar(c: char): (d: char)
    ensures 'A' <= c <= 'Z' ==> 'a' <= d <= 'z' && d as int == c as int + 32
    ensures !('A' <= c <= 'Z') ==> d == c
  {
    if 'A' <= c <= 'Z' then (c as int - 'A' as int + 'a' as int) as char else c
  }

  /** `s.toLowerCase()`, restricted to the ASCII letters. */
  function ToLower(s: string): (r: string)
    ensures |r| == |s|
    ensures forall i :: 0 <= i < |s| ==> r[i] == LowerChar(s[i])
  {
    seq(|s|, i requires 0 <= i < |s| => LowerChar(s[i]))
  }

  /** Lower-casing is idempotent. */
  lemma ToLowerIdempotent(s: string)
    ensures ToLower(ToLower(s)) == ToLower(s)
  {
  }
}

=== FILE: transport.dfy ===
/**
 * The reconnecting WebSocket client (`WebSocketService`) as a pure state
 * machine. Every socket callback, timer expiry and public call is an `Event`;
 * `Step` returns the next service state together with the `Effect`s the call
 * performs, in order: callbacks handed to the owner, sockets opened or closed,
 * reconnect timers armed, frames transmitted.
 */
module Transport {
  import opened Wrappers

  /** `maxReconnectAttempts`. */
  const MaxReconnectAttempts: nat := 5
  /** `reconnectDelay`, the first back-off delay in milliseconds. */
  const ReconnectDelayMs: nat := 1000

  /** Close codes after which the service never reconnects on its own. */
  const NormalClosure: int := 1000
  const AbnormalClosure: int := 1006
  const InternalError: int := 1011
  const TlsHandshake: int := 1015

  /** `WebSocket.readyState`. */
  datatype ReadyState = Connecting | Open | Closing | Closed

  /** A frame after `JSON.parse`: a step-status event. */
  datatype Message = Message(step: string, status: string, contextMessage: string)

  /**
   * The service's fields. `socket` is `ws` (None for null) reduced to its
   * ready state; `timeoutArmed` says whether the connection timeout is
   * pending; `pendingReconnects` counts armed reconnect timers, which the
   * source never stores and so never cancels. `urlAccepted` says whether the
   * `WebSocket` constructor accepts `url` (it throws on a malformed one).
   */
  datatype Service = Service(
    url: string,
    urlAccepted: bool,
    socket: Option<ReadyState>,
    reconnectAttempts: nat,
    shouldReconnect: bool,
    timeoutArmed: bool,
    pendingReconnects: nat)

  /** Everything that can happen to a service. */
  datatype Event =
    | Connect                        // connect()
    | Opened                         // ws.onopen
    | Frame(parsed: Option<Message>) // ws.onmessage; None when JSON.parse throws
    | ClosedWith(code: int)          // ws.onclose
    | Errored(observed: ReadyState)  // ws.onerror, with the readyState the browser shows then
    | ConnectTimeoutFired            // the connection timeout expires
    | ReconnectTimerFired            // a back-off timer expires
    | Disconnect                     // disconnect()
    | StopReconnecting               // stopReconnecting()
    | ResetReconnection              // resetReconnection()
    | Send(payload: string)          // send(data), payload already serialised
    | ClosingStarted                 // the browser starts the closing handshake

  /** What a step does outside the service's own fields. */
  datatype Effect =
    | CallOnOpen
    | CallOnMessage(message: Message)
    | CallOnClose
    | CallOnError
    | OpenSocket(url: string)
    | CloseSocket(code: Option<int>)
    | ScheduleReconnect(delayMs: nat)
    | Transmit(payload: string)

  datatype Transition = Transition(next: Service, effects: seq<Effect>)

  function Pow2(n: nat): (r: nat)
    ensures r >= 1
  {
    if n == 0 then 1 else 2 * Pow2(n - 1)
  }

  /** A freshly constructed service: no socket, reconnection enabled. */
  function NewService(url: string, urlAccepted: bool): (s: Service)
    ensures s.url == url && s.socket == None
    ensures s.reconnectAttempts == 0 && s.shouldReconnect
    ensures !s.timeoutArmed && s.pendingReconnects == 0
  {
    Service(url, urlAccepted, None, 0, true, false, 0)
  }

  /** The counter never exceeds the cap. */
  predicate Valid(s: Service) {
    s.reconnectAttempts <= MaxReconnectAttempts
  }

  /** `isConnected()`. */
  predicate IsConnected(s: Service) {
    s.socket == Some(Open)
  }

  /** The delay armed by the reconnect that raises the counter to `attempt`. */
  function BackoffDelay(attempt: nat): (d: nat)
    requires attempt >= 1
    ensures d == ReconnectDelayMs * Pow2(attempt - 1)
    ensures attempt > 1 ==> d == 2 * BackoffDelay(attempt - 1)
  {
    ReconnectDelayMs * Pow2(attempt - 1)
  }

  /** `connect()`: replace the socket with a new CONNECTING one and arm the timeout. */
  function OnConnect(s: Service): (t: Transition)
    ensures s.urlAccepted ==>
      && t.next == s.(socket := Some(Connecting), timeoutArmed := true)
      && t.effects == [OpenSocket(s.url)]
    ensures !s.urlAccepted ==> t.next == s.(shouldReconnect := false) && t.effects == []
  {
    if s.urlAccepted then
      Transition(s.(socket := Some(Connecting), timeoutArmed := true), [OpenSocket(s.url)])
    else
      Transition(s.(shouldReconnect := false), [])
  }

  /** `ws.onopen`: disarm the timeout, reset the counter, re-enable reconnection. */
  function OnOpen(s: Service): (t: Transition)
    ensures t.next.reconnectAttempts == 0
    ensures t.next.shouldReconnect
    ensures !t.next.timeoutArmed
    ensures s.socket.Some? ==> IsConnected(t.next)
    ensures t.next.url == s.url && t.next.pendingReconnects == s.pendingReconnects
    ensures t.effects == [CallOnOpen]
  {
    var socket := if s.socket.Some? then Some(Open) else None;
    Transition(s.(socket := socket, timeoutArmed := false, reconnectAttempts := 0, shouldReconnect := true),
               [CallOnOpen])
  }

  /** `ws.onmessage`: forward a parsed frame; a malformed one is dropped. */
  function OnFrame(s: Service, parsed: Option<Message>): (t: Transition)
    ensures t.next == s
    ensures parsed.None? ==> t.effects == []
    ensures parsed.Some? ==> t.effects == [CallOnMessage(parsed.value)]
  {
    match parsed
    case None => Transition(s, [])
    case Some(m) => Transition(s, [CallOnMessage(m)])
  }

  /** The close codes the `switch` in `ws.onclose` treats as terminal. */
  predicate TerminalClose(code: int, attemptsBefore: nat) {
    code == NormalClosure || code == InternalError || code == TlsHandshake
    || (code == AbnormalClosure && attemptsBefore == 0)
  }

  /**
   * `ws.onclose`: disarm the timeout, call `onClose`, classify the code, then
   * schedule a reconnect if still enabled and below the cap.
   */
  function OnClose(s: Service, code: int): (t: Transition)
    ensures !t.next.timeoutArmed
    ensures t.next.shouldReconnect <==> s.shouldReconnect && !TerminalClose(code, s.reconnectAttempts)
    ensures |t.effects| >= 1 && t.effects[0] == CallOnClose
    ensures var retry := t.next.shouldReconnect && s.reconnectAttempts < MaxReconnectAttempts;
      && (retry ==> t.next.reconnectAttempts == s.reconnectAttempts + 1
                    && t.next.pendingReconnects == s.pendingReconnects + 1
                    && t.effects == [CallOnClose, ScheduleReconnect(BackoffDelay(t.next.reconnectAttempts))])
      && (!retry ==> t.next.reconnectAttempts == s.reconnectAttempts
                     && t.next.pendingReconnects == s.pendingReconnects
                     && t.effects == [CallOnClose])
    ensures s.socket.Some? ==> t.next.socket == Some(Closed)
    ensures s.socket.None? ==> t.next.socket == None
  {
    var socket := if s.socket.Some? then Some(Closed) else None;
    var keep := s.shouldReconnect && !TerminalClose(code, s.reconnectAttempts);
    var s1 := s.(socket := socket, timeoutArmed := false, shouldReconnect := keep);
    if keep && s.reconnectAttempts < MaxReconnectAttempts then
      var attempts := s.reconnectAttempts + 1;
      Transition(s1.(reconnectAttempts := attempts, pendingReconnects := s.pendingReconnects + 1),
                 [CallOnClose, ScheduleReconnect(ReconnectDelayMs * Pow2(attempts - 1))])
    else
      Transition(s1, [CallOnClose])
  }

  /**
   * `ws.onerror`: disarm the timeout; if the socket reads CLOSED, give up on
   * reconnecting; call `onError`.
   */
  function OnError(s: Service, observed: ReadyState): (t: Transition)
    ensures !t.next.timeoutArmed
    ensures s.socket.Some? && observed == Closed ==> !t.next.shouldReconnect
    ensures !(s.socket.Some? && observed == Closed) ==> t.next.shouldReconnect == s.shouldReconnect
    ensures t.next.reconnectAttempts == s.reconnectAttempts
    ensures t.next.pendingReconnects == s.pendingReconnects
    ensures t.effects == [CallOnError]
  {
    var socket := if s.socket.Some? then Some(observed) else None;
    var closed := socket == Some(Closed);
    Transition(s.(socket := socket, timeoutArmed := false,
                  shouldReconnect := if closed then false else s.shouldReconnect),
               [CallOnError])
  }

  /**
   * The connection timeout expires. A cleared timer never fires; an armed
   * one that finds the socket still CONNECTING disables reconnection and
   * closes the socket.
   */
  function OnConnectTimeout(s: Service): (t: Transition)
    ensures !s.timeoutArmed ==> t == Transition(s, [])
    ensures s.timeoutArmed && s.socket == Some(Connecting) ==>
      && !t.next.shouldReconnect
      && t.next.socket == Some(Closing)
      && t.effects == [CloseSocket(None)]
    ensures s.timeoutArmed && s.socket != Some(Connecting) ==> t == Transition(s.(timeoutArmed := false), [])
    ensures t.next.reconnectAttempts == s.reconnectAttempts
    ensures !t.next.timeoutArmed
  {
    if !s.timeoutArmed then Transition(s, [])
    else if s.socket == Some(Connecting) then
      Transition(s.(timeoutArmed := false, shouldReconnect := false, socket := Some(Closing)),
                 [CloseSocket(None)])
    else Transition(s.(timeoutArmed := false), [])
  }

  /** A back-off timer expires: reconnect only if reconnection is still enabled. */
  function OnReconnectTimer(s: Service): (t: Transition)
    ensures s.pendingReconnects == 0 ==> t == Transition(s, [])
    ensures s.pendingReconnects > 0 && !s.shouldReconnect ==>
      t == Transition(s.(pendingReconnects := s.pendingReconnects - 1), [])
    ensures s.pendingReconnects > 0 && s.shouldReconnect ==>
      t == OnConnect(s.(pendingReconnects := s.pendingReconnects - 1))
    ensures OpenSocket(s.url) in t.effects ==> s.shouldReconnect
  {
    if s.pendingReconnects == 0 then Transition(s, [])
    else
      var s1 := s.(pendingReconnects := s.pendingReconnects - 1);
      if s1.shouldReconnect then OnConnect(s1) else Transition(s1, [])
  }

  /** `disconnect()`: disable reconnection, disarm the timeout, close and drop the socket. */
  function OnDisconnect(s: Service): (t: Transition)
    ensures !t.next.shouldReconnect && !t.next.timeoutArmed && t.next.socket == None
    ensures t.next.reconnectAttempts == s.reconnectAttempts
    ensures t.next.pendingReconnects == s.pendingReconnects
    ensures s.socket.Some? ==> t.effects == [CloseSocket(Some(NormalClosure))]
    ensures s.socket.None? ==> t.effects == []
  {
    var s1 := s.(shouldReconnect := false, timeoutArmed := false, socket := None);
    if s.socket.Some? then Transition(s1, [CloseSocket(Some(NormalClosure))]) else Transition(s1, [])
  }

  /** `stopReconnecting()`: disable reconnection and disarm the timeout; the socket stays. */
  function OnStopReconnecting(s: Service): (t: Transition)
    ensures t.next == s.(shouldReconnect := false, timeoutArmed := false)
    ensures t.effects == []
  {
    Transition(s.(shouldReconnect := false, timeoutArmed := false), [])
  }

  /** `resetReconnection()`: re-enable reconnection with a fresh counter. */
  function OnResetReconnection(s: Service): (t: Transition)
    ensures t.next == s.(shouldReconnect := true, reconnectAttempts := 0)
    ensures t.effects == []
  {
    Transition(s.(shouldReconnect := true, reconnectAttempts := 0), [])
  }

  /** `send(data)`: transmit only on an OPEN socket, otherwise drop it. */
  function OnSend(s: Service, payload: string): (t: Transition)
    ensures t.next == s
    ensures IsConnected(s) ==> t.effects == [Transmit(payload)]
    ensures !IsConnected(s) ==> t.effects == []
  {
    if s.socket == Some(Open) then Transition(s, [Transmit(payload)]) else Transition(s, [])
  }

  /**
   * The browser starts the closing handshake on its own, for example when
   * the server's close frame arrives. An OPEN socket becomes CLOSING without
   * any handler running; `onclose` follows later.
   */
  function OnClosingStarted(s: Service): (t: Transition)
    ensures t.effects == []
    ensures s.socket == Some(Open) ==> t.next == s.(socket := Some(Closing)) && !IsConnected(t.next)
    ensures s.socket != Some(Open) ==> t.next == s
  {
    if s.socket == Some(Open) then Transition(s.(socket := Some(Closing)), []) else Transition(s, [])
  }

  /** One event applied to the service. The URL is fixed for the service's lifetime. */
  function Step(s: Service, e: Event): (t: Transition)
    ensures t.next.url == s.url && t.next.urlAccepted == s.urlAccepted
  {
    match e
    case Connect => OnConnect(s)
    case Opened => OnOpen(s)
    case Frame(parsed) => OnFrame(s, parsed)
    case ClosedWith(code) => OnClose(s, code)
    case Errored(observed) => OnError(s, observed)
    case ConnectTimeoutFired => OnConnectTimeout(s)
    case ReconnectTimerFired => OnReconnectTimer(s)
    case Disconnect => OnDisconnect(s)
    case StopReconnecting => OnStopReconnecting(s)
    case ResetReconnection => OnResetReconnection(s)
    case Send(payload) => OnSend(s, payload)
    case ClosingStarted => OnClosingStarted(s)
  }

  /**
   * Events the browser can deliver in state `s`: `onopen` fires only for a
   * CONNECTING socket, a closing handshake starts only on an OPEN socket,
   * and a timer fires only while it is armed.
   */
  predicate Possible(s: Service, e: Event) {
    match e
    case Opened => s.socket == Some(Connecting)
    case ClosingStarted => s.socket == Some(Open)
    case ConnectTimeoutFired => s.timeoutArmed
    case ReconnectTimerFired => s.pendingReconnects > 0
    case _ => true
  }

  /** A sequence of events applied in order by `step`, with all the effects they perform. */
  function RunWith(step: (Service, Event) -> Transition, s: Service, es: seq<Event>): Transition
    decreases |es|
  {
    if |es| == 0 then Transition(s, [])
    else
      var t0 := step(s, es[0]);
      var rest := RunWith(step, t0.next, es[1..]);
      Transition(rest.next, t0.effects + rest.effects)
  }

  /** The service's own run. */
  function Run(s: Service, es: seq<Event>): Transition {
    RunWith(Step, s, es)
  }

  /** Every state reachable through `Step` keeps the counter within the cap. */
  lemma StepPreservesValid(s: Service, e: Event)
    requires Valid(s)
    ensures Valid(Step(s, e).next)
  {
  }

  lemma {:induction false} RunPreservesValid(s: Service, es: seq<Event>)
    requires Valid(s)
    ensures Valid(Run(s, es).next)
    decreases |es|
  {
    if |es| > 0 {
      StepPreservesValid(s, es[0]);
      RunPreservesValid(Step(s, es[0]).next, es[1..]);
      assert Run(s, es).next == Run(Step(s, es[0]).next, es[1..]).next;
    }
  }

  /** No reconnect is ever scheduled from a close with a terminal code. */
  lemma NoRetryAfterTerminalCode(s: Service, code: int)
    requires code == NormalClosure || code == InternalError || code == TlsHandshake
    ensures !OnClose(s, code).next.shouldReconnect
    ensures OnClose(s, code).effects == [CallOnClose]
  {
  }

  /**
   * As written, `onopen` zeroes the counter, so an abnormal close right after
   * a successful open is terminal: no reconnect, and reconnection disabled.
   */
  lemma AbnormalCloseAfterOpenIsTerminal(s: Service)
    ensures var afterOpen := Step(s, Opened).next;
      && !Step(afterOpen, ClosedWith(AbnormalClosure)).next.shouldReconnect
      && Step(afterOpen, ClosedWith(AbnormalClosure)).effects == [CallOnClose]
  {
  }

  /**
   * An abnormal close schedules a reconnect only when the counter is already
   * positive, i.e. for a reconnect attempt that has not opened since.
   */
  lemma AbnormalCloseRetriesOnlyUnopened(s: Service)
    requires ScheduleReconnect(BackoffDelay(s.reconnectAttempts + 1)) in OnClose(s, AbnormalClosure).effects
    ensures s.reconnectAttempts > 0
  {
  }

  /** The delays of the five permitted reconnects. */
  lemma BackoffSchedule()
    ensures BackoffDelay(1) == 1000 && BackoffDelay(2) == 2000 && BackoffDelay(3) == 4000
    ensures BackoffDelay(4) == 8000 && BackoffDelay(5) == 16000
  {
  }

  /** Disconnected: reconnection off and no socket referenced. */
  predicate Quiesced(s: Service) {
    !s.shouldReconnect && s.socket == None
  }

  /**
   * Once quiesced, no event the browser can deliver — other than an explicit
   * `connect()` or `resetReconnection()` — opens a socket or arms a reconnect,
   * and the service stays quiesced.
   */
  lemma QuiescedStep(s: Service, e: Event)
    requires Quiesced(s) && Possible(s, e)
    requires !e.Connect? && !e.ResetReconnection?
    ensures Quiesced(Step(s, e).next)
    ensures forall eff :: eff in Step(s, e).effects ==> !eff.OpenSocket? && !eff.ScheduleReconnect?
  {
  }

  /**
   * `stopReconnecting()` before a back-off timer fires, or before the socket
   * closes, means no socket is opened and no reconnect is armed.
   */
  lemma StopPreventsReconnect(s: Service, code: int)
    ensures OnReconnectTimer(OnStopReconnecting(s).next).effects == []
    ensures OnClose(OnStopReconnecting(s).next, code).effects == [CallOnClose]
  {
  }

  /**
   * `resetReconnection()` restores the full budget: the next close with a
   * code the `switch` does not treat as terminal schedules the first,
   * one-second reconnect, even after the cap was reached; an abnormal
   * close (1006) does not, because the counter is 0 again.
   */
  lemma ResetRestoresBudget(s: Service, code: int)
    requires !TerminalClose(code, 0)
    ensures var t := OnClose(OnResetReconnection(s).next, code);
      && t.effects == [CallOnClose, ScheduleReconnect(ReconnectDelayMs)]
      && t.next.reconnectAttempts == 1 && t.next.shouldReconnect
  {
  }

  /** With the counter back at 0, an abnormal close right after `resetReconnection()` is terminal. */
  lemma ResetThenAbnormalIsTerminal(s: Service)
    ensures var t := OnClose(OnResetReconnection(s).next, AbnormalClosure);
      t.effects == [CallOnClose] && !t.next.shouldReconnect && t.next.reconnectAttempts == 0
  {
  }

  /**
   * Data sent after `onopen` is transmitted; data sent once the closing
   * handshake has started, or after `disconnect()`, is dropped.
   */
  lemma SendNeedsOpenSocket(s: Service, payload: string)
    ensures s.socket.Some? ==> OnSend(OnOpen(s).next, payload).effects == [Transmit(payload)]
    ensures s.socket.Some? ==>
      var closing := OnClosingStarted(OnOpen(s).next).next;
      !IsConnected(closing) && OnSend(closing, payload).effects == []
    ensures OnSend(OnDisconnect(s).next, payload).effects == []
  {
  }

  /** Events that keep the browser's promises along a whole run. */
  predicate PossibleRun(s: Service, es: seq<Event>)
    decreases |es|
  {
    |es| == 0 || (Possible(s, es[0]) && PossibleRun(Step(s, es[0]).next, es[1..]))
  }

  /**
   * After `disconnect()`, no later reconnect timer, close or error ever
   * reconnects: until the owner calls `connect()` or `resetReconnection()`
   * again, no socket is opened and no reconnect is armed.
   */
  lemma {:induction false} NoReconnectAfterDisconnect(s: Service, es: seq<Event>)
    requires PossibleRun(OnDisconnect(s).next, es)
    requires forall i :: 0 <= i < |es| ==> !es[i].Connect? && !es[i].ResetReconnection?
    ensures forall eff :: eff in Run(OnDisconnect(s).next, es).effects ==> !eff.OpenSocket? && !eff.ScheduleReconnect?
  {
    QuiescedRun(OnDisconnect(s).next, es);
  }

  lemma {:induction false} QuiescedRun(s: Service, es: seq<Event>)
    requires Quiesced(s) && PossibleRun(s, es)
    requires forall i :: 0 <= i < |es| ==> !es[i].Connect? && !es[i].ResetReconnection?
    ensures forall eff :: eff in Run(s, es).effects ==> !eff.OpenSocket? && !eff.ScheduleReconnect?
    decreases |es|
  {
    if |es| > 0 {
      QuiescedStep(s, es[0]);
      assert forall i :: 0 <= i < |es[1..]| ==> es[1..][i] == es[i + 1];
      QuiescedRun(Step(s, es[0]).next, es[1..]);
    }
  }

  /**
   * `disconnect()` does not detach the socket's handlers: the close that
   * follows still calls the owner's `onClose`, but never reconnects.
   */
  lemma LateCloseAfterDisconnect(s: Service, code: int)
    ensures var t := Step(OnDisconnect(s).next, ClosedWith(code));
      CallOnClose in t.effects && !t.next.shouldReconnect && |t.effects| == 1
  {
  }

  /** The delays in a list of effects, in order. */
  function Delays(effs: seq<Effect>): (ds: seq<nat>)
    ensures |ds| <= |effs|
  {
    if |effs| == 0 then []
    else (if effs[0].ScheduleReconnect? then [effs[0].delayMs] else []) + Delays(effs[1..])
  }

  lemma {:induction false} DelaysAppend(a: seq<Effect>, b: seq<Effect>)
    ensures Delays(a + b) == Delays(a) + Delays(b)
    decreases |a|
  {
    if |a| > 0 {
      assert (a + b)[1..] == a[1..] + b;
      DelaysAppend(a[1..], b);
    } else {
      assert a + b == b;
    }
  }

  /** Running two event lists one after the other is running their concatenation. */
  lemma {:induction false} RunWithAppend(step: (Service, Event) -> Transition, s: Service, a: seq<Event>, b: seq<Event>)
    ensures RunWith(step, s, a + b).next == RunWith(step, RunWith(step, s, a).next, b).next
    ensures RunWith(step, s, a + b).effects == RunWith(step, s, a).effects + RunWith(step, RunWith(step, s, a).next, b).effects
    decreases |a|
  {
    if |a| == 0 {
      assert a + b == b;
    } else {
      assert (a + b)[0] == a[0];
      assert (a + b)[1..] == a[1..] + b;
      RunWithAppend(step, step(s, a[0]).next, a[1..], b);
    }
  }

  /** A close code the `switch` in `ws.onclose` has no case for (going away). */
  const GoingAway: int := 1001

  /**
   * A reconnect whose socket closes before opening with a code the `switch`
   * has no case for (1001, going away) and reports no error first. A browser
   * that fails to open a socket reports an error on the already CLOSED socket
   * and then closes it with 1006; `FailedReconnectIsTerminal` shows that this
   * ends reconnection.
   */
  function RetryCycle(s: Service): Transition {
    var t1 := OnReconnectTimer(s);
    var t2 := OnClose(t1.next, GoingAway);
    Transition(t2.next, t1.effects + t2.effects)
  }

  /** `n` failed reconnects in a row. */
  function FailedRetries(s: Service, n: nat): Transition
    decreases n
  {
    if n == 0 then Transition(s, [])
    else
      var t0 := RetryCycle(s);
      var rest := FailedRetries(t0.next, n - 1);
      Transition(rest.next, t0.effects + rest.effects)
  }

  /** One failed reconnect below the cap arms the next timer with the next delay. */
  lemma FailedRetryStep(s: Service)
    requires s.urlAccepted && s.shouldReconnect && s.pendingReconnects == 1
    requires s.reconnectAttempts < MaxReconnectAttempts
    ensures var t := RetryCycle(s);
      && t.next == s.(socket := Some(Closed), timeoutArmed := false, reconnectAttempts := s.reconnectAttempts + 1)
      && Delays(t.effects) == [BackoffDelay(s.reconnectAttempts + 1)]
  {
    var d := BackoffDelay(s.reconnectAttempts + 1);
    assert RetryCycle(s).effects == [OpenSocket(s.url), CallOnClose, ScheduleReconnect(d)];
    assert Delays([ScheduleReconnect(d)]) == [d];
    assert Delays([CallOnClose, ScheduleReconnect(d)]) == [d];
  }

  /**
   * Consecutive failed reconnects arm timers whose delays double each time:
   * after `k` earlier attempts the next `n` wait `BackoffDelay(k + 1)`, ...,
   * `BackoffDelay(k + n)`.
   */
  lemma {:induction false} BackoffDoubles(s: Service, n: nat)
    requires s.urlAccepted && s.shouldReconnect && s.pendingReconnects == 1
    requires s.reconnectAttempts + n <= MaxReconnectAttempts
    ensures FailedRetries(s, n).next.reconnectAttempts == s.reconnectAttempts + n
    ensures FailedRetries(s, n).next.shouldReconnect && FailedRetries(s, n).next.urlAccepted
    ensures FailedRetries(s, n).next.pendingReconnects == 1
    ensures Delays(FailedRetries(s, n).effects) == seq(n, i requires 0 <= i < n => BackoffDelay(s.reconnectAttempts + i + 1))
    decreases n
  {
    if n > 0 {
      FailedRetryStep(s);
      var t0 := RetryCycle(s);
      BackoffDoubles(t0.next, n - 1);
      var rest := FailedRetries(t0.next, n - 1);
      DelaysAppend(t0.effects, rest.effects);
      var k := s.reconnectAttempts;
      assert Delays(FailedRetries(s, n).effects) == [BackoffDelay(k + 1)] + Delays(rest.effects);
      var tail := seq(n - 1, i requires 0 <= i < n - 1 => BackoffDelay(k + 1 + i + 1));
      assert Delays(rest.effects) == tail;
      assert [BackoffDelay(k + 1)] + tail == seq(n, i requires 0 <= i < n => BackoffDelay(k + i + 1));
    }
  }

  /**
   * From a fresh counter, five reconnects each closed with 1001 and no error
   * wait 1, 2, 4, 8 and 16 seconds.
   */
  lemma FullBackoffSchedule(s: Service)
    requires s.urlAccepted && s.shouldReconnect && s.pendingReconnects == 1 && s.reconnectAttempts == 0
    ensures Delays(FailedRetries(s, 5).effects) == [1000, 2000, 4000, 8000, 16000]
    ensures FailedRetries(s, 5).next.reconnectAttempts == MaxReconnectAttempts
  {
    BackoffDoubles(s, 5);
    BackoffSchedule();
  }

  /**
   * A reconnect that fails as a browser reports it, an error read while the
   * socket is CLOSED followed by an abnormal close (1006), disables
   * reconnection and arms no further timer, whatever the counter.
   */
  lemma FailedReconnectIsTerminal(s: Service)
    requires s.urlAccepted && s.shouldReconnect && s.pendingReconnects == 1
    ensures var t1 := OnReconnectTimer(s);
      var t2 := OnError(t1.next, Closed);
      var t3 := OnClose(t2.next, AbnormalClosure);
      && t1.effects == [OpenSocket(s.url)]
      && t2.effects == [CallOnError]
      && t3.effects == [CallOnClose]
      && !t3.next.shouldReconnect && t3.next.pendingReconnects == 0
      && t3.next.reconnectAttempts == s.reconnectAttempts
  {
  }

  /** At the cap, a failed reconnect arms nothing: reconnection stops for good. */
  lemma StopsAtCap(s: Service)
    requires s.reconnectAttempts == MaxReconnectAttempts
    ensures forall code :: Delays(OnClose(s, code).effects) == []
  {
    forall code ensures Delays(OnClose(s, code).effects) == [] {
      assert OnClose(s, code).effects == [CallOnClose];
    }
  }
}

=== FILE: wrappers.dfy ===
/** Optional values: the model's stand-in for JavaScript's `undefined`/`null`. */
module Wrappers {

  datatype Option<+T> = None | Some(value: T)
}
